=== FILE: README.md ===
# easy-swing core in Dafny

This project models the core of easy-swing, a small Java framework for Swing
frames that wires annotated fields by reflection and fills their text from
YAML language files. It proves properties of five parts of that core:

- `StringUtil`: first-character case change (`string_util.dfy`, module `StringUtil`).
- `Locale`: loading a language file from the first search path that yields
  a document, and dotted-key text lookup (`locale_store.dfy`, modules
  `LocaleStore` and `LocaleKeys`).
- `ReflectUtil`: the field, method, text-setter and constructor searches
  over a class and its superclasses (`reflect_util.dfy`, module `ReflectUtil`).
- `Container`: the per-frame registry that injects `@I18N` and `@Container`
  fields, keeps an insertion-ordered map from display object to text key,
  and pushes text into each object (`component_registry.dfy`, module
  `ComponentRegistry`).
- `Context`: the process-wide state holding setter names, open frames,
  language, active locale and search paths, and the frame life cycle
  (`context.dfy`, module `FrameworkContext`).

Supporting modules: `Common` (`Option` for Java's null, `Try` for an exception
that escapes) and `LinkedMap` (the `LinkedHashMap` behind the registry).

How the model represents the Java program:

- A class is a `ClassDecl`. It lists its declared fields, methods and
  constructors in declaration order, its interfaces, its class annotations
  and its superclass, ending at `java.lang.Object`.
- A field or method found by a search is a `Member`. It carries the
  distance of its declaring class from the runtime class and its position
  in that class.
- Calls into user code are answered by a `World` record: getters, field
  reads, whether a constructor returns normally, setters, field writes and
  initializers. The `World` also supplies the loadable classes.
- A new object's identity is supplied by the caller, as a number no live
  object has. So two constructions never give the same object, and a
  registry whose objects all have smaller identities does not yet hold it
  (`Container.AllocatedBelow`).
- The observable result of a registry or context operation is its new state
  plus the log of reflective calls it makes, in order.
- The locale passed to `NewFrame` may be null: auto-wiring then renders
  without a locale, which throws exactly when some registered object has a
  text setter, and the frame stays registered but is not shown.
- A language file is a parsed `Node`: null, a scalar shown as its string
  form, or a mapping in document order. The classpath is a map from
  resource name to parsed document or "unparseable".

Where the documented behaviour and the code differ, the model follows the
code:

- `text(key)` on a key whose last segment reaches a nested mapping returns
  the mapping's `toString()` (`{k=v, ...}`), not null.
  `LocaleStore.NestedDocumentMapping` shows this.
- A key made only of dots, such as `"."`, splits into no segments. It
  therefore yields the whole document's string form (`LocaleStore.DotKeyExample`).
- A language file whose document is empty (null) still ends the search.
  The locale then stays unloaded.
- A scalar document fails the assignment to the map-typed field. That
  counts as a failed load, and the next path is tried.

## Model

| member | source | states |
|---|---|---|
| StringUtil.HasLength | src/main/java/io/github/evalexp/util/StringUtil.java:21-23 | true exactly when the string is non-null and has at least one character |
| StringUtil.ChangeFirstCharacterCase | src/main/java/io/github/evalexp/util/StringUtil.java:49-69 | null and empty strings come back as given; otherwise the length and every character after the first are kept and the first is mapped to upper or lower case |
| StringUtil.Capitalize | src/main/java/io/github/evalexp/util/StringUtil.java:30-32 | null stays null, the first character is upper-cased and the rest is untouched |
| StringUtil.Uncapitalize | src/main/java/io/github/evalexp/util/StringUtil.java:39-41 | null stays null, the first character is lower-cased and the rest is untouched |
| StringUtil.AlreadyInCase | src/main/java/io/github/evalexp/util/StringUtil.java:62-64 | a string whose first character is already in the target case is returned as it is |
| StringUtil.CapitalizeIdempotent | src/main/java/io/github/evalexp/util/StringUtil.java:30-32 | capitalizing twice equals capitalizing once |
| StringUtil.UncapitalizeUndoesCapitalize | src/main/java/io/github/evalexp/util/StringUtil.java:30-41 | uncapitalize undoes capitalize on a string that starts with a lower-case letter |
| LinkedMap.IndexOf | src/main/java/io/github/evalexp/Container.java:19 | the position of the first entry with a present key |
| LinkedMap.GetCons | src/main/java/io/github/evalexp/Container.java:19 | looking up in a map with a leading entry finds that entry's value when the keys match and searches the rest otherwise |
| LinkedMap.Get | src/main/java/io/github/evalexp/Container.java:19 | the map has no value exactly when the key is absent; a value found is the value of an entry with that key |
| LinkedMap.Put | src/main/java/io/github/evalexp/Container.java:188 | the key then maps to the new value, other keys keep theirs, keys stay unique, a present key is replaced in place and a new key is appended |
| LinkedMap.Remove | src/main/java/io/github/evalexp/Container.java:176 | the key is gone, other keys keep their values, keys stay unique, and removing an absent key changes nothing |
| LinkedMap.GetEntry | src/main/java/io/github/evalexp/Container.java:105-106 | in a map with unique keys, looking up an entry's key gives that entry's value |
| LinkedMap.PutEntry | src/main/java/io/github/evalexp/Container.java:92 | a non-null value is put under its key and the map is otherwise unchanged; a null value leaves the map as it was; existing keys keep their positions |
| LinkedMap.PutEach | src/main/java/io/github/evalexp/Container.java:90-93 | a run of puts keeps every earlier key at its position |
| LinkedMap.PutEachHasKey | src/main/java/io/github/evalexp/Container.java:90-93 | after a run of puts, the key of every non-null entry is in the map |
| LinkedMap.PutEachOrder | src/main/java/io/github/evalexp/Container.java:90-93 | a run of puts appends new keys in the order they are first put: an entry's key comes before the key of a later entry that no earlier entry and no previous entry of the map has |
| LinkedMap.IndexKept | src/main/java/io/github/evalexp/Container.java:188 | when the keys of a map keep their positions, each keeps its index and every added key comes after all of them |
| LinkedMap.RemoveDeletesOneEntry | src/main/java/io/github/evalexp/Container.java:175-177 | removing a present key deletes exactly its entry and keeps the order of the others |
| LocaleKeys.SplitAll | src/main/java/io/github/evalexp/Locale.java:46 | there is at least one piece and no piece contains a dot |
| LocaleKeys.DropTrailingEmpty | src/main/java/io/github/evalexp/Locale.java:46 | the result is a prefix that ends in a non-empty piece, and only empty pieces were dropped |
| LocaleKeys.Split | src/main/java/io/github/evalexp/Locale.java:46 | a dot-free key is its own single segment; otherwise the segments are all the dot-separated pieces with only the trailing empty ones removed: a dot-free prefix of the pieces, ending in a non-empty piece, followed in the pieces only by empty ones |
| LocaleKeys.JoinSplitAll | src/main/java/io/github/evalexp/Locale.java:46 | joining the pieces of any string with dots gives the string back |
| LocaleKeys.SplitAllDotFreePrefix | src/main/java/io/github/evalexp/Locale.java:46 | a dot-free prefix only extends the first piece |
| LocaleKeys.SplitAllJoin | src/main/java/io/github/evalexp/Locale.java:46 | dot-free pieces survive a join followed by a split |
| LocaleKeys.SplitJoin | src/main/java/io/github/evalexp/Locale.java:46 | a key joined from dot-free segments splits back into exactly those segments when there is one segment or the last is non-empty; empty interior segments survive |
| LocaleStore.Child | src/main/java/io/github/evalexp/Locale.java:50 | null exactly when the mapping has no entry with that key; otherwise the value of an entry with that key |
| LocaleStore.Text | src/main/java/io/github/evalexp/Locale.java:45-56 | an unloaded locale gives null for every key |
| LocaleStore.ResolveAppend | src/main/java/io/github/evalexp/Locale.java:48-54 | descending along a path in two legs reaches the same node as in one |
| LocaleStore.TextNullBelowNonMap | src/main/java/io/github/evalexp/Locale.java:49-53 | a segment left over after reaching a non-mapping makes the text null |
| LocaleStore.TextNullOnMissingSegment | src/main/java/io/github/evalexp/Locale.java:48-55 | a segment missing from the mapping reached so far makes the text null |
| LocaleStore.TextOfPath | src/main/java/io/github/evalexp/Locale.java:45-55 | a key joined from dot-free segments, the last non-empty, yields the string form of the node they reach, scalar or mapping alike, and null exactly when they reach nothing |
| LocaleStore.ChildOfSingleton | src/main/java/io/github/evalexp/Locale.java:50 | the child of a one-entry mapping is its value under its own key and null under every other |
| LocaleStore.NestedDocumentLeaf | src/main/java/io/github/evalexp/Locale.java:45-55 | in `{a: {b: {c: X}}}` the key `a.b.c` yields `X` |
| LocaleStore.NestedDocumentMissing | src/main/java/io/github/evalexp/Locale.java:45-55 | in `{a: {b: {c: X}}}` the key `a.b.z` yields null |
| LocaleStore.NestedDocumentMapping | src/main/java/io/github/evalexp/Locale.java:55 | in `{a: {b: {c: X}}}` the key `a` yields the nested mapping's string form `{b={c=X}}` |
| LocaleStore.DotKeyExample | src/main/java/io/github/evalexp/Locale.java:45-55 | the key `.` yields the whole loaded document's string form |
| LocaleStore.Attempt | src/main/java/io/github/evalexp/Locale.java:24-28 | one iteration stores a document exactly when the resource `/<path>/<language>.yml` exists, parses and is not a scalar; the document stored is that resource's parsed document, which is null or a mapping |
| LocaleStore.FirstLoadable | src/main/java/io/github/evalexp/Locale.java:23-29 | every path before the chosen one fails, and the chosen one, if any, succeeds |
| LocaleStore.Load | src/main/java/io/github/evalexp/Locale.java:22-30 | the locale holds the parsed document of the resource of the first path that loads, and stays unloaded when every path fails |
| LocaleStore.NewLocale | src/main/java/io/github/evalexp/Locale.java:22-30 | the loop that stops at the first completed load computes the locale `Load` describes |
| LocaleStore.FirstLoadableIgnoresLaterPaths | src/main/java/io/github/evalexp/Locale.java:23-29 | appending paths never changes which path is chosen once one loads |
| LocaleStore.LaterPathsIgnored | src/main/java/io/github/evalexp/Locale.java:22-30 | appending paths never changes a locale that an earlier path provides |
| ReflectUtil.Ancestor | src/main/java/io/github/evalexp/util/ReflectUtil.java:23-29 | the class reached by walking up is a declared class exactly while it is below Object |
| ReflectUtil.OwnMarkedFields | src/main/java/io/github/evalexp/util/ReflectUtil.java:24-28 | exactly the fields of one class that carry the annotation, in declaration order |
| ReflectUtil.MarkedFieldsFrom | src/main/java/io/github/evalexp/util/ReflectUtil.java:23-30 | exactly the annotated fields of the classes from a given depth up to Object, nearer classes first |
| ReflectUtil.SearchFieldByAnnotation | src/main/java/io/github/evalexp/util/ReflectUtil.java:20-32 | every field returned carries the annotation, every annotated field below Object is returned, subclass fields first and declaration order within a class |
| ReflectUtil.DeclaredMethod | src/main/java/io/github/evalexp/util/ReflectUtil.java:66 | the first declared method with exactly this name and these parameter types, or none |
| ReflectUtil.MethodFrom | src/main/java/io/github/evalexp/util/ReflectUtil.java:64-71 | the match is in the nearest class from the given depth that declares one, and no nearer class declares one |
| ReflectUtil.SearchMethodByNameAndType | src/main/java/io/github/evalexp/util/ReflectUtil.java:61-73 | null exactly when no class below Object declares the signature; otherwise the nearest declaring class's method |
| ReflectUtil.SearchSetterByField | src/main/java/io/github/evalexp/util/ReflectUtil.java:40-42 | a setter found is named `set` plus the capitalized field name and takes exactly the field's type; null exactly when no class declares one |
| ReflectUtil.SearchGetterByField | src/main/java/io/github/evalexp/util/ReflectUtil.java:50-52 | a getter found is named `get` plus the capitalized field name and takes no argument; null exactly when no class declares one |
| ReflectUtil.I18NMethodChoice | src/main/java/io/github/evalexp/util/ReflectUtil.java:81-89 | null exactly when no name resolves to a one-String method; otherwise the method for the earliest name that does |
| ReflectUtil.NonNullArgumentsChecked | src/main/java/io/github/evalexp/util/ReflectUtil.java:103-106 | with no null argument the check never throws, and it returns true exactly when every parameter accepts its argument |
| ReflectUtil.NonNullArgumentsCheckedFrom | src/main/java/io/github/evalexp/util/ReflectUtil.java:103-106 | the same, for the check resumed at any position |
| ReflectUtil.ArgumentsAccepted | src/main/java/io/github/evalexp/util/ReflectUtil.java:103-106 | true exactly when every argument is non-null and accepted; throws exactly when a null argument is reached before any rejection |
| ReflectUtil.PublicConstructors | src/main/java/io/github/evalexp/util/ReflectUtil.java:101 | exactly the public constructors of the class |
| ReflectUtil.FilterPublic | src/main/java/io/github/evalexp/util/ReflectUtil.java:101 | exactly the public constructors of the list |
| ReflectUtil.FirstFitting | src/main/java/io/github/evalexp/util/ReflectUtil.java:101-112 | the first constructor of matching arity that accepts the arguments, none when no constructor fits, and a throw only on a null argument |
| ReflectUtil.NoArgConstructor | src/main/java/io/github/evalexp/util/ReflectUtil.java:99 | a public constructor without parameters, or none when every public constructor takes parameters |
| ReflectUtil.GetConstructor | src/main/java/io/github/evalexp/util/ReflectUtil.java:97-117 | a constructor returned is public, fits the arguments and is the first that does; null means none fits; it throws only on a null argument and never when all arguments are non-null |
| ReflectUtil.AssignableToAncestors | src/main/java/io/github/evalexp/util/ReflectUtil.java:105 | every class is assignable to Object and to each of its superclasses |
| ReflectUtil.LaterNamesIgnored | src/main/java/io/github/evalexp/util/ReflectUtil.java:81-89 | appending setter names never changes a text setter already found |
| ReflectUtil.ListOrderBeatsDepth | src/main/java/io/github/evalexp/util/ReflectUtil.java:82-86 | a superclass's `setText` wins over a nearer `setTitle` when `setText` comes first in the list |
| ComponentRegistry.NewContainer | src/main/java/io/github/evalexp/Container.java:28-31 | a new registry holds its frame and no component |
| ComponentRegistry.Clear | src/main/java/io/github/evalexp/Container.java:36-39 | afterwards no object is registered and the frame is null |
| ComponentRegistry.ReadExisting | src/main/java/io/github/evalexp/Container.java:49-59 | with a getter in the class chain, exactly one getter call is made and its result is taken, or the given value is kept when it throws; otherwise exactly one field read, with the same rule |
| ComponentRegistry.ConstructDefault | src/main/java/io/github/evalexp/Container.java:61-67 | for a loadable field type with a public no-argument constructor, exactly one construction is made and its instance, with the identity supplied for it, is returned unless it throws; otherwise no call is made and the result is null; a value returned is always such an instance |
| ComponentRegistry.InjectObject | src/main/java/io/github/evalexp/Container.java:48-80 | a value kept, given or read is written back and returned if the write succeeds; a null one is replaced by a newly constructed instance with the identity supplied for it, which is written back and returned if the write succeeds; a failed construction returns null without writing; the calls are logged in that order |
| ComponentRegistry.TryRenderComponent | src/main/java/io/github/evalexp/Container.java:115-124 | one call exactly when the object has a text setter, passing the text for the key even when it is null |
| ComponentRegistry.RenderEntries | src/main/java/io/github/evalexp/Container.java:104-108 | at most one text-setter call per entry, and every entry whose object has a text setter gets its call with the text for its key |
| ComponentRegistry.RenderEntryAt | src/main/java/io/github/evalexp/Container.java:104-108 | each entry contributes exactly its own call, if any, after the calls of the entries before it and before those of the entries after it |
| ComponentRegistry.RenderCallsListed | src/main/java/io/github/evalexp/Container.java:104-124 | every call goes to a listed object through its text setter with the text for its key |
| ComponentRegistry.Render | src/main/java/io/github/evalexp/Container.java:104-108 | every registered object with a text setter gets one call with the text for its key, and every call goes to a registered object through its text setter with that text |
| ComponentRegistry.RenderVisitsEveryEntry | src/main/java/io/github/evalexp/Container.java:104-108 | when every object has a text setter, one call per entry in insertion order |
| ComponentRegistry.RenderConcat | src/main/java/io/github/evalexp/Container.java:104-108 | rendering two runs of entries is rendering one then the other |
| ComponentRegistry.RenderAfterRelease | src/main/java/io/github/evalexp/Container.java:175-177 | after a release, a render is the render before it with the released object's call taken out |
| ComponentRegistry.RenderActive | src/main/java/io/github/evalexp/Container.java:115-124 | with a null locale, render throws exactly when some registered object has a text setter, and makes no call otherwise |
| ComponentRegistry.RenderWithoutSetters | src/main/java/io/github/evalexp/Container.java:115-124 | objects without a text setter get no call |
| ComponentRegistry.ReleaseComponent | src/main/java/io/github/evalexp/Container.java:175-177 | only the given object is unregistered, and releasing an unregistered object changes nothing |
| ComponentRegistry.Register | src/main/java/io/github/evalexp/Container.java:188 | the object then maps to the key, other objects keep their keys and positions, and an object not registered before is appended at the end |
| ComponentRegistry.PackComponent | src/main/java/io/github/evalexp/Container.java:186-191 | refuses exactly a null object or a key without text, changing nothing; otherwise registers the object and renders it with non-null text |
| ComponentRegistry.NewCompatibleComponent | src/main/java/io/github/evalexp/Container.java:157-168 | throws when no constructor fits; otherwise the result is null exactly when the chosen constructor throws, and then the registry is unchanged and only that construction is logged; a new object gets the identity supplied for it, is registered under the key and rendered; when no registered object has that identity or a larger one, it is appended as a new entry after all the others |
| ComponentRegistry.NewComponent | src/main/java/io/github/evalexp/Container.java:142-148 | null exactly when no constructor fits or construction fails, with the registry unchanged; otherwise the new object, with the identity supplied for it, is registered under the key, and appended after all others when that identity is unallocated |
| ComponentRegistry.WireI18nFields | src/main/java/io/github/evalexp/Container.java:90-93 | the first pass keeps the frame, unique keys and the positions of objects registered before, and calls no initializer |
| ComponentRegistry.WireContainerFields | src/main/java/io/github/evalexp/Container.java:95-96 | one write of the registry per `@Container` field, in search order |
| ComponentRegistry.AutoWired | src/main/java/io/github/evalexp/Container.java:89-99 | the registered objects are exactly those from before plus the injected `@I18N` values, each field's object under that field's key unless a later field gives the same object; when the fields held only objects allocated earlier, every field that held null has its own new instance registered under its own key, and only the identities handed out are new; objects are registered in the order of the fields that first give them, after every object registered before; each `@Container` field gets the registry; the log ends with the render pass, which throws under a null locale exactly when text is needed, and holds no initializer call |
| ComponentRegistry.WiringKeepsKeys | src/main/java/io/github/evalexp/Container.java:90-93 | the first pass never unregisters anything |
| ComponentRegistry.WiringLeavesOthers | src/main/java/io/github/evalexp/Container.java:90-93 | an object no field yields keeps the key it had |
| ComponentRegistry.FieldKey | src/main/java/io/github/evalexp/Container.java:90-93 | the object a field's injection gives is registered under that field's key unless a later field gives the same object, so the last put wins |
| ComponentRegistry.WiringPutsEach | src/main/java/io/github/evalexp/Container.java:90-93 | the first pass is one `put` per field whose injection is non-null, in field order, of the injected object under the field's key |
| ComponentRegistry.WiringOrder | src/main/java/io/github/evalexp/Container.java:90-93 | the object of an earlier field is registered before the object a later field is the first to give, when that object was not registered before the pass |
| ComponentRegistry.WiringOrders | src/main/java/io/github/evalexp/Container.java:90-93 | the same for every pair of fields at once |
| ComponentRegistry.FieldEntryOf | src/main/java/io/github/evalexp/Container.java:91-92 | a field's entry is present exactly when its injection is non-null, and then holds the injected object |
| ComponentRegistry.InjectionCallsNoInitializer | src/main/java/io/github/evalexp/Container.java:48-80 | injecting a field calls getters, constructors and setters but never an initializer |
| ComponentRegistry.FieldKeys | src/main/java/io/github/evalexp/Container.java:90-93 | the same for every field at once |
| ComponentRegistry.AfterFirstField | src/main/java/io/github/evalexp/Container.java:91-92 | handling the first field registers its object, if any, under its key, and the rest of the pass continues from there |
| ComponentRegistry.FieldKeyFirst | src/main/java/io/github/evalexp/Container.java:90-93 | the first field's object, given by no later field, ends the pass under the first field's key |
| ComponentRegistry.LastToGiveInTail | src/main/java/io/github/evalexp/Container.java:90-93 | a later field that is the last to give its object is still the last among the fields after the first |
| ComponentRegistry.RegisteredFieldValues | src/main/java/io/github/evalexp/Container.java:90-93 | every non-null injected value is registered, and every registered object was there before or is such a value |
| ComponentRegistry.RegistersExactly | src/main/java/io/github/evalexp/Container.java:90-93 | from an empty registry, the first pass registers exactly the injected values |
| ComponentRegistry.FieldIdentity | src/main/java/io/github/evalexp/Container.java:48-67 | the object injected into a field is the one it held, or, when it held null, a new instance of the field's type with the identity handed to that field |
| ComponentRegistry.ConstructedFieldKey | src/main/java/io/github/evalexp/Container.java:90-93 | when the fields held only objects allocated earlier, a field that held null has its new instance registered under its own key, so two null fields of one type give two entries |
| ComponentRegistry.ConstructedKeys | src/main/java/io/github/evalexp/Container.java:90-93 | the same for every field at once |
| ComponentRegistry.WiredAllocatedBelow | src/main/java/io/github/evalexp/Container.java:90-93 | when everything registered or held was allocated earlier, every object registered after the first pass has an identity below the first one the pass did not hand out |
| ComponentRegistry.WiredFresh | src/main/java/io/github/evalexp/Container.java:90-93 | both facts above, under the hypothesis that the fields held only objects allocated earlier |
| FrameworkContext.Initial | src/main/java/io/github/evalexp/Context.java:162-165 | the initial state satisfies the context invariant, with one setter name, one search path, no frame, no locale and `zh_CN` |
| FrameworkContext.AddI18nSearchMethod | src/main/java/io/github/evalexp/Context.java:106-108 | the name is tried after all earlier ones, nothing else changes, and the invariant is kept |
| FrameworkContext.AddedNameKeepsSetters | src/main/java/io/github/evalexp/Context.java:106-108 | adding a setter name never changes an object's text setter once it has one |
| FrameworkContext.AddLanguageFileSearchPath | src/main/java/io/github/evalexp/Context.java:114-116 | the path is searched after all earlier ones, nothing else changes, and the invariant is kept |
| FrameworkContext.AddedPathKeepsLocale | src/main/java/io/github/evalexp/Context.java:114-116 | adding a search path never changes a language an earlier path provides |
| FrameworkContext.SetDefaultLanguage | src/main/java/io/github/evalexp/Context.java:137-139 | only the default language changes |
| FrameworkContext.UpdateTreeUI | src/main/java/io/github/evalexp/Context.java:91-100 | every open frame, and only those, is rendered: its calls are exactly its registry's render pass with the new locale |
| FrameworkContext.SetLocale | src/main/java/io/github/evalexp/Context.java:154-160 | the loaded locale is installed, and every frame's calls are its render pass with it, exactly when it loaded or the change is forced; otherwise nothing changes and nothing is rendered |
| FrameworkContext.ChangeLocale | src/main/java/io/github/evalexp/Context.java:145-147 | a locale that loaded is installed and every frame re-rendered with it; one that did not leaves the state as it was and renders nothing |
| FrameworkContext.LoadDefault | src/main/java/io/github/evalexp/Context.java:129-131 | the default language's locale is always installed and every frame's calls are its render pass with that locale |
| FrameworkContext.ChangeToMissingLanguage | src/main/java/io/github/evalexp/Context.java:154-160 | a language no path provides changes nothing and renders nothing |
| FrameworkContext.ForceMissingLanguage | src/main/java/io/github/evalexp/Context.java:154-160 | forcing a missing language installs a locale whose every text is null |
| FrameworkContext.ChangeLocaleIdempotent | src/main/java/io/github/evalexp/Context.java:154-160 | repeating a locale change leaves the state and the calls of the first change |
| FrameworkContext.DestroyFrame | src/main/java/io/github/evalexp/Context.java:83-86 | throws exactly for an id with no open frame; otherwise forgets only that frame and clears its registry |
| FrameworkContext.RunInitializers | src/main/java/io/github/evalexp/Context.java:41-50 | every call is to an `@Initializer` method of matching arity that accepts the arguments; a stop is caused by a null argument or a failed call (the exact completion condition, the order of the calls and the stop at the first failure are stated by `InitializersComplete`, `InitializersInOrder` and `InitializersStopAtFailure`) |
| FrameworkContext.CheckThrowsOnNull | src/main/java/io/github/evalexp/Context.java:44-45 | the argument check throws only when some argument is null |
| FrameworkContext.InitializersComplete | src/main/java/io/github/evalexp/Context.java:41-50 | the loop completes exactly when, for every `@Initializer` method of matching arity, the argument check meets no null and, if every parameter accepts its argument, the invocation returns normally |
| FrameworkContext.InitializersInOrder | src/main/java/io/github/evalexp/Context.java:41-50 | the calls made are exactly the first few applicable initializers, in declaration order, each once |
| FrameworkContext.FirstInitializerTaken | src/main/java/io/github/evalexp/Context.java:41-48 | when the first method takes the arguments, its call comes before the calls for the rest |
| FrameworkContext.FirstInitializerSkipped | src/main/java/io/github/evalexp/Context.java:41-49 | when the first method does not take the arguments, the calls are those for the rest |
| FrameworkContext.CallsCons | src/main/java/io/github/evalexp/Context.java:41-48 | the calls for a prefix of one method followed by others are that method's call followed by the calls for the shorter prefix of the others |
| FrameworkContext.Applicable | src/main/java/io/github/evalexp/Context.java:42-47 | exactly the initializers that take the arguments |
| FrameworkContext.InitializerCalls | src/main/java/io/github/evalexp/Context.java:48 | one invocation record per method, in the same order |
| FrameworkContext.InitializersStopAtFailure | src/main/java/io/github/evalexp/Context.java:41-50 | the loop stops at the first invocation that throws: every call before the last returned normally, and a run that completes made one call per applicable initializer |
| FrameworkContext.CompletedRunCallsAll | src/main/java/io/github/evalexp/Context.java:41-50 | a run that completes made one call per applicable initializer |
| FrameworkContext.StopsAtFailure | src/main/java/io/github/evalexp/Context.java:41-50 | every initializer call before the last one returned normally |
| FrameworkContext.AllInitializersRun | src/main/java/io/github/evalexp/Context.java:41-50 | with non-null arguments and no failing call among the applicable initializers, the loop completes and its calls are exactly the applicable initializers, each once, in declaration order |
| FrameworkContext.NewFrame | src/main/java/io/github/evalexp/Context.java:31-63 | nothing happens unless the class is an `@Frame` class whose no-argument construction succeeds; then the frame gets the identity supplied for it and the id maps to a new registry holding the frame and, as auto-wiring leaves it, exactly its injected `@I18N` values, in the order of the fields that first give them, each new instance under its own field's key; other frames are untouched and the invariant is kept; the frame is shown exactly when the render pass needed no missing locale, every initializer returned normally and the class is a `JFrame` (the cast before `setVisible` succeeds); a built frame's calls start with its construction and end with the initializer loop's calls when the render pass completed, and nothing before those calls an initializer |
| FrameworkContext.ExtendsJFrame | src/main/java/io/github/evalexp/Context.java:35-51 | a class with `JFrame` among its superclasses passes the cast to `JFrame` |
| FrameworkContext.FrameRegistry | src/main/java/io/github/evalexp/Context.java:38-40 | the new registry has the identity supplied for it, holds the frame, is a proper map, is wired as `WiredRegistry` states, its render pass completes exactly when a locale is active or no text is needed, and wiring calls no initializer |
| FrameworkContext.FrameWired | src/main/java/io/github/evalexp/Context.java:39-51 | after wiring, the id maps to the registry; the calls are the construction, then the wiring's, then, if the render pass completed, the initializer loop's; the frame is shown exactly when rendering and the loop completed and the class is a `JFrame` |
| FrameworkContext.FrameShown | src/main/java/io/github/evalexp/Context.java:31-58 | a `JFrame` frame class built while a locale is active, with non-null arguments and no failing applicable initializer, is shown |
| FrameworkContext.RegisterThenDestroy | src/main/java/io/github/evalexp/Context.java:83-86 | destroying a frame just registered under a fresh id restores the previous state |
| FrameworkContext.OpenThenDestroy | src/main/java/io/github/evalexp/Context.java:38-39 | opening a frame under a fresh id and destroying it restores the previous state |

## Left out

- Swing itself: `setVisible`, the window listener that calls `destroyFrame` on close, `updateComponentTreeUI`, and `setLookAndFeel`. `NewFrame` only reports whether the frame would be shown.
- The "Frame must extend JFrame" message is not modelled. Its consequence is: a frame class that is not a `JFrame` stays registered and wired, but the cast before `setVisible` throws, so it is never shown and gets no close listener.
- Error printing (`printStackTrace`, `System.err`) is not modelled.
- YAML parsing: the classpath maps each resource name to an already parsed document or to "unparseable".
- `Launcher.java` is not part of this model.
- Case mapping covers ASCII letters only. Every other character maps to itself.
- The order of `getDeclaredFields`, `getDeclaredMethods` and `getConstructors` is taken to be declaration order. Java leaves it unspecified.
- The `HashMap` of open frames has no iteration order. `UpdateTreeUI` therefore reports the render calls per frame id.
- Display objects are compared by identity and runtime class. User-defined `equals`/`hashCode` on components is not modelled.
- Documents are taken to have no duplicate keys in a mapping. The YAML loader keeps the last of several equal keys; `Child` on a mapping with duplicates would find the first.
- Mapping keys are taken to be strings. YAML keys such as `1` or `yes` load as numbers or booleans, and `get` with a string never finds them; a `Node` mapping cannot express such keys.
- Getter and setter calls are answered by the `World` without a shared heap. A getter reading a field that another field's setter changed is not modelled.
- An initializer that is not accessible (a private method) fails through the `World`'s answer for that call.
- The `hasLength(CharSequence)` overload behaves like the `String` one and is not modelled separately.
- `getLocale()` is a plain read of the `locale` field and has no member of its own.
- PackComponent: takes a non-null locale, so a call before any locale is installed is not modelled. In the source, `packComponent(null, key)` still returns false without reading the locale. With a non-null object it throws a `NullPointerException` from `getLocale().text` (Container.java line 187).
- NewCompatibleComponent: takes a non-null locale, so a call before any locale is installed is not modelled. In the source the locale is read only when a text setter is found. For an object without one, the object is registered and returned normally. For an object with one, it is registered first, and then the `NullPointerException` escapes the narrow catch.
- NewComponent: takes a non-null locale, so a call before any locale is installed is not modelled. In the source it turns that `NullPointerException` into a null result, but the new object stays registered.
- LocaleStore.Text: its own contract states only the unloaded case. The descent is stated by `TextNullBelowNonMap`, `TextNullOnMissingSegment`, `TextOfPath` and the three worked documents. A null key is not modelled: keys are strings, and `text(null)` throws a `NullPointerException` in the source.
- NewFrame: what an initializer's body does is not modelled. The `World` only says whether an invocation returns normally. In the source an initializer can register further objects through the frame's `@Container` field, with `newComponent` or `packComponent`, as lines 24-27 of src/test/java/TestFrame.java do. So the registry `NewFrame` promises is the one auto-wiring leaves. That other frames are untouched also relies on initializer bodies not being modelled.
- FrameworkContext.RunInitializers: its own contract states which calls can appear and why the loop stops. The exact completion condition, the order of the calls and the stop at the first failure are stated by `InitializersComplete`, `InitializersInOrder` and `InitializersStopAtFailure`.
- Object allocation is not modelled as a heap. The caller supplies each new instance's identity (`newId`), a number no live object has. `NewFrame` gives the frame `newId`, its registry `newId + 1`, and field `i` of the first auto-wiring pass `newId + 2 + i`.
- ConstructedFieldKey: rests on the hypothesis that every object the `@I18N` fields already hold was allocated before the pass's identities (`HeldBelow`). The frame's constructor is a call into user code, and objects it allocates for its fields have no identity in the model.
- ComponentRegistry.WireI18nFields: its own contract keeps only the frame, unique keys and positions. Which objects get registered, under which key and in which order, is stated by `RegisteredFieldValues`, `WiringLeavesOthers`, `FieldKey`, `FieldKeys`, `WiringPutsEach` and `WiringOrder`.
- PackComponent: a null text key is not modelled, since keys are strings. In the source, `packComponent(o, null)` throws from `text`.
- NewCompatibleComponent: a null text key is not modelled. In the source the new object is put under the null key, then `text(null)` throws past the narrow catch. The entry stays registered, so every later render of that registry throws at it.
- NewComponent: a null text key is not modelled. In the source it turns the exception above into a null result but leaves the null-keyed entry registered.

=== FILE: common.dfy ===
/** Shared wrappers: Java's nullable references and calls that may throw. */
module Common {

  /** A nullable Java reference: `None` stands for `null`. */
  datatype Option<+T> = None | Some(value: T) {

    /** The wrapped value, or `default` for null. */
    function GetOr(default: T): T {
      match this
      case Some(v) => v
      case None => default
    }
  }

  /** The outcome of a call that may raise an exception the caller does not catch. */
  datatype Try<+T> = Returned(value: T) | Threw
}

=== FILE: component_registry.dfy ===
/**
 * The component registry (`Container`): one per open frame. It wires the
 * frame's tagged fields, keeps an insertion-ordered map from display object
 * to text key, and pushes locale text into each registered object.
 *
 * Reflective calls whose outcome depends on user code (getters, setters,
 * field access, instantiation, initializers) are answered by a `World`; the
 * observable result of an operation is its new state plus the log of the
 * reflective calls it makes, in order.
 */
module ComponentRegistry {
  import opened Common
  import opened ReflectUtil
  import LinkedMap
  import LocaleStore

  const ContainerClassName: TypeName := "io.github.evalexp.Container"

  /** The runtime class of a registry object. */
  const ContainerClass: ClassDecl :=
    Declared(ContainerClassName, [], [], [], {}, [], ObjectClass)

  /** A reflective call made by an operation. */
  datatype Effect =
    | GetterCall(target: Obj, getter: Member<MethodDecl>)
    | FieldRead(target: Obj, field: Member<FieldDecl>)
    | Construct(cls: ClassDecl, args: seq<Option<Obj>>)
    | SetterCall(target: Obj, setter: Member<MethodDecl>, value: Obj)
    | FieldWrite(target: Obj, field: Member<FieldDecl>, value: Obj)
    | TextSetterCall(target: Obj, setter: Member<MethodDecl>, text: Option<string>)
    | InitializerCall(target: Obj, init: MethodDecl, args: seq<Option<Obj>>)

  /** No entry of `log` calls an `@Initializer` method. */
  predicate NoInitializerCall(log: seq<Effect>) {
    forall e :: e in log ==> !e.InitializerCall?
  }

  /** A concatenation of logs calls no initializer exactly when neither part does. */
  lemma NoInitializerCallConcat(a: seq<Effect>, b: seq<Effect>)
    ensures NoInitializerCall(a + b) <==> NoInitializerCall(a) && NoInitializerCall(b)
  {
    assert forall e :: e in a ==> e in a + b;
    assert forall e :: e in b ==> e in a + b;
  }

  /**
   * Outcomes of calls into user code: what a getter or field read returns,
   * and whether a constructor, setter, field write or initializer returns
   * normally. `types` is the classpath of loadable classes by name. The
   * identity of a new instance is not an outcome of user code: the caller
   * supplies one that no live object has (`newId`).
   */
  datatype World = World(
    types: map<TypeName, ClassDecl>,
    callGetter: (Obj, Member<MethodDecl>) -> Try<Option<Obj>>,
    readField: (Obj, Member<FieldDecl>) -> Try<Option<Obj>>,
    instantiate: (ClassDecl, seq<Option<Obj>>) -> bool,
    callSetter: (Obj, Member<MethodDecl>, Obj) -> bool,
    writeField: (Obj, Member<FieldDecl>, Obj) -> bool,
    callInitializer: (Obj, MethodDecl, seq<Option<Obj>>) -> bool)

  /**
   * A registry: its own identity, the frame it wires (null once cleared)
   * and the registered display objects with their text keys.
   */
  datatype Container = Container(self: Obj, frame: Option<Obj>, components: seq<(Obj, string)>) {
    predicate Valid() {
      LinkedMap.Unique(components)
    }

    /** Every registered object was allocated before identity `newId`. */
    predicate AllocatedBelow(newId: nat) {
      forall i :: 0 <= i < |components| ==> components[i].0.id < newId
    }
  }

  /** `new Container(frame, i18nSearchMethods)`: nothing registered yet. */
  function NewContainer(self: Obj, frame: Obj): (c: Container)
    ensures c.Valid() && c.components == [] && c.frame == Some(frame) && c.self == self
  {
    Container(self, Some(frame), [])
  }

  /** `clear()`: forget every component and drop the frame. */
  function Clear(c: Container): (r: Container)
    ensures r.components == [] && r.frame == None && r.self == c.self
    ensures forall o :: !LinkedMap.HasKey(r.components, o)
  {
    c.(frame := None, components := [])
  }

  // ---------------------------------------------------------------- injection

  /** The result of `injectObject`: the value written back, or null, and the calls made. */
  datatype Injection = Injection(result: Option<Obj>, log: seq<Effect>)

  /**
   * Reading the current value: through the getter when the frame's class
   * chain has one, else straight from the field. A read that throws leaves
   * `value` in place.
   */
  function ReadExisting(frame: Obj, field: Member<FieldDecl>, value: Option<Obj>, w: World): (r: (Option<Obj>, seq<Effect>))
    ensures SearchGetterByField(frame, field.decl).Some? ==>
      var g := SearchGetterByField(frame, field.decl).value;
      && r.1 == [GetterCall(frame, g)]
      && (w.callGetter(frame, g) == Returned(r.0) || (w.callGetter(frame, g).Threw? && r.0 == value))
    ensures SearchGetterByField(frame, field.decl).None? ==>
      && r.1 == [FieldRead(frame, field)]
      && (w.readField(frame, field) == Returned(r.0) || (w.readField(frame, field).Threw? && r.0 == value))
  {
    match SearchGetterByField(frame, field.decl)
    case Some(g) =>
      (match w.callGetter(frame, g) case Returned(v) => v case Threw => value, [GetterCall(frame, g)])
    case None =>
      (match w.readField(frame, field) case Returned(v) => v case Threw => value, [FieldRead(frame, field)])
  }

  /**
   * `field.getType().getConstructor().newInstance()`: null when the type is
   * not a loadable class, has no public no-argument constructor, or its
   * construction throws. The new instance gets identity `newId`.
   */
  function ConstructDefault(fieldType: TypeName, newId: nat, w: World): (r: (Option<Obj>, seq<Effect>))
    ensures r.0.Some? ==> fieldType in w.types && NoArgConstructor(w.types[fieldType]).Some?
                          && w.instantiate(w.types[fieldType], [])
                          && r.0.value == Obj(newId, w.types[fieldType])
    ensures fieldType in w.types && NoArgConstructor(w.types[fieldType]).Some? ==>
      && r.1 == [Construct(w.types[fieldType], [])]
      && (r.0.Some? <==> w.instantiate(w.types[fieldType], []))
    ensures r.1 == [] <==> fieldType !in w.types || NoArgConstructor(w.types[fieldType]).None?
  {
    if fieldType !in w.types then (None, [])
    else
      var cls := w.types[fieldType];
      match NoArgConstructor(cls)
      case None => (None, [])
      case Some(_) =>
        if w.instantiate(cls, []) then (Some(Obj(newId, cls)), [Construct(cls, [])])
        else (None, [Construct(cls, [])])
  }

  /** The call that writes `v` into the field: its setter when one exists, else a direct field write. */
  function WriteEffect(frame: Obj, field: Member<FieldDecl>, v: Obj): Effect {
    match SearchSetterByField(frame, field.decl)
    case Some(s) => SetterCall(frame, s, v)
    case None => FieldWrite(frame, field, v)
  }

  /** Whether that write returns normally. */
  predicate WriteSucceeds(frame: Obj, field: Member<FieldDecl>, v: Obj, w: World) {
    match SearchSetterByField(frame, field.decl)
    case Some(s) => w.callSetter(frame, s, v)
    case None => w.writeField(frame, field, v)
  }

  /**
   * `injectObject(field, keepOrigin, value)`: with `keepOrigin` the existing
   * value is preferred; a null value is replaced by a new instance of the
   * field's type, with identity `newId`; the value is then written back. A
   * failed construction or write gives null.
   */
  function InjectObject(frame: Obj, field: Member<FieldDecl>, keepOrigin: bool, value: Option<Obj>, newId: nat, w: World): (r: Injection)
    ensures r.result.Some? ==> |r.log| > 0 && r.log[|r.log| - 1] == WriteEffect(frame, field, r.result.value)
                               && WriteSucceeds(frame, field, r.result.value, w)
    ensures !keepOrigin && value.Some? ==>
      r.log == [WriteEffect(frame, field, value.value)]
      && r.result == (if WriteSucceeds(frame, field, value.value, w) then value else None)
    ensures keepOrigin && ReadExisting(frame, field, value, w).0.Some? ==>
      var existing := ReadExisting(frame, field, value, w).0.value;
      && r.log == ReadExisting(frame, field, value, w).1 + [WriteEffect(frame, field, existing)]
      && r.result == (if WriteSucceeds(frame, field, existing, w) then Some(existing) else None)
    ensures var read := if keepOrigin then ReadExisting(frame, field, value, w) else (value, []);
      var built := ConstructDefault(field.decl.fieldType, newId, w);
      read.0.None? ==>
        && (built.0.None? ==> r.result.None? && r.log == read.1 + built.1)
        && (built.0.Some? ==>
              && r.log == read.1 + built.1 + [WriteEffect(frame, field, built.0.value)]
              && r.result == (if WriteSucceeds(frame, field, built.0.value, w) then built.0 else None))
  {
    var (resolved, readLog) := if keepOrigin then ReadExisting(frame, field, value, w) else (value, []);
    var (v, constructLog) := if resolved.Some? then (resolved, []) else ConstructDefault(field.decl.fieldType, newId, w);
    if v.None? then Injection(None, readLog + constructLog)
    else
      var log := readLog + constructLog + [WriteEffect(frame, field, v.value)];
      Injection(if WriteSucceeds(frame, field, v.value, w) then v else None, log)
  }

  /** Injecting a field calls getters, constructors and setters, never an initializer. */
  lemma InjectionCallsNoInitializer(frame: Obj, field: Member<FieldDecl>, keepOrigin: bool, value: Option<Obj>, newId: nat, w: World)
    ensures NoInitializerCall(InjectObject(frame, field, keepOrigin, value, newId, w).log)
  {
    var read := if keepOrigin then ReadExisting(frame, field, value, w) else (value, []);
    var built := ConstructDefault(field.decl.fieldType, newId, w);
    NoInitializerCallConcat(read.1, built.1);
    if read.0.Some? {
      NoInitializerCallConcat(read.1, [WriteEffect(frame, field, read.0.value)]);
    } else if built.0.Some? {
      NoInitializerCallConcat(read.1 + built.1, [WriteEffect(frame, field, built.0.value)]);
    }
  }

  // ---------------------------------------------------------------- rendering

  /**
   * `tryRenderComponent`: call the object's text setter, if it has one,
   * with the text for `key`, even when that text is null.
   */
  function TryRenderComponent(component: Obj, key: string, setterNames: seq<string>, locale: LocaleStore.Locale): (r: seq<Effect>)
    ensures |r| <= 1
    ensures |r| == 1 <==> SearchI18NCompatibleMethod(component, setterNames).Some?
    ensures |r| == 1 ==> r[0] == TextSetterCall(component, SearchI18NCompatibleMethod(component, setterNames).value,
                                                LocaleStore.Text(locale, key))
  {
    match SearchI18NCompatibleMethod(component, setterNames)
    case Some(m) => [TextSetterCall(component, m, LocaleStore.Text(locale, key))]
    case None => []
  }

  /** The render pass over `entries`, in order. */
  function RenderEntries(entries: seq<(Obj, string)>, setterNames: seq<string>, locale: LocaleStore.Locale): (r: seq<Effect>)
    ensures |r| <= |entries|
    ensures forall e :: e in r ==> e.TextSetterCall?
    ensures forall i :: 0 <= i < |entries| && SearchI18NCompatibleMethod(entries[i].0, setterNames).Some? ==>
      TextSetterCall(entries[i].0, SearchI18NCompatibleMethod(entries[i].0, setterNames).value,
                     LocaleStore.Text(locale, entries[i].1)) in r
  {
    if |entries| == 0 then []
    else
      var head := TryRenderComponent(entries[0].0, entries[0].1, setterNames, locale);
      var tail := entries[1..];
      var rest := RenderEntries(tail, setterNames, locale);
      assert forall i :: 1 <= i < |entries| ==> entries[i] == tail[i - 1];
      var r := head + rest;
      r
  }

  /**
   * Entry `i` contributes exactly its own call, if any, between the calls
   * of the entries before it and those of the entries after it.
   */
  lemma RenderEntryAt(entries: seq<(Obj, string)>, i: nat, setterNames: seq<string>, locale: LocaleStore.Locale)
    requires i < |entries|
    ensures RenderEntries(entries, setterNames, locale)
            == RenderEntries(entries[..i], setterNames, locale)
               + TryRenderComponent(entries[i].0, entries[i].1, setterNames, locale)
               + RenderEntries(entries[i + 1..], setterNames, locale)
  {
    assert entries == entries[..i] + entries[i..];
    RenderConcat(entries[..i], entries[i..], setterNames, locale);
    assert entries[i..][0] == entries[i];
    assert entries[i..][1..] == entries[i + 1..];
  }

  /** Every call of a render pass goes to a listed object, through its text setter, with the text for its key. */
  lemma {:induction false} RenderCallsListed(entries: seq<(Obj, string)>, setterNames: seq<string>, locale: LocaleStore.Locale)
    ensures forall e :: e in RenderEntries(entries, setterNames, locale) ==>
      && Some(e.setter) == SearchI18NCompatibleMethod(e.target, setterNames)
      && exists k :: (e.target, k) in entries && e.text == LocaleStore.Text(locale, k)
  {
    if |entries| > 0 {
      RenderCallsListed(entries[1..], setterNames, locale);
      var head := TryRenderComponent(entries[0].0, entries[0].1, setterNames, locale);
      var rest := RenderEntries(entries[1..], setterNames, locale);
      assert RenderEntries(entries, setterNames, locale) == head + rest;
      assert forall x :: x in entries[1..] ==> x in entries;
      assert entries[0] in entries;
    }
  }

  /**
   * `render()`: every registered object, once, in insertion order, gets
   * the text for its key through its text setter; objects without one are
   * skipped.
   */
  function Render(c: Container, setterNames: seq<string>, locale: LocaleStore.Locale): (r: seq<Effect>)
    ensures |r| <= |c.components|
    ensures forall e :: e in r ==> e.TextSetterCall? && LinkedMap.HasKey(c.components, e.target)
                                   && Some(e.setter) == SearchI18NCompatibleMethod(e.target, setterNames)
    ensures c.Valid() ==> forall e :: e in r ==>
      e.text == LocaleStore.Text(locale, LinkedMap.Get(c.components, e.target).value)
    ensures forall o :: LinkedMap.HasKey(c.components, o) && SearchI18NCompatibleMethod(o, setterNames).Some? ==>
      TextSetterCall(o, SearchI18NCompatibleMethod(o, setterNames).value,
                     LocaleStore.Text(locale, LinkedMap.Get(c.components, o).value)) in r
  {
    var r := RenderEntries(c.components, setterNames, locale);
    RenderCallsListed(c.components, setterNames, locale);
    assert forall e :: e in r ==> LinkedMap.HasKey(c.components, e.target) && (c.Valid() ==>
      e.text == LocaleStore.Text(locale, LinkedMap.Get(c.components, e.target).value)) by {
      forall e | e in r
        ensures LinkedMap.HasKey(c.components, e.target)
        ensures c.Valid() ==> e.text == LocaleStore.Text(locale, LinkedMap.Get(c.components, e.target).value)
      {
        var k :| (e.target, k) in c.components && e.text == LocaleStore.Text(locale, k);
        var i :| 0 <= i < |c.components| && c.components[i] == (e.target, k);
        if c.Valid() {
          LinkedMap.GetEntry(c.components, i);
        }
      }
    }
    forall o | LinkedMap.HasKey(c.components, o) && SearchI18NCompatibleMethod(o, setterNames).Some?
      ensures TextSetterCall(o, SearchI18NCompatibleMethod(o, setterNames).value,
                             LocaleStore.Text(locale, LinkedMap.Get(c.components, o).value)) in r
    {
      var i := LinkedMap.IndexOf(c.components, o);
      assert c.components[i].0 == o;
    }
    r
  }

  /**
   * When every listed object has a text setter, the pass makes exactly one
   * call per entry, in entry order, each with the text for that entry's key.
   */
  lemma {:induction false} RenderVisitsEveryEntry(entries: seq<(Obj, string)>, setterNames: seq<string>, locale: LocaleStore.Locale)
    requires forall i :: 0 <= i < |entries| ==> SearchI18NCompatibleMethod(entries[i].0, setterNames).Some?
    ensures |RenderEntries(entries, setterNames, locale)| == |entries|
    ensures forall i :: 0 <= i < |entries| ==>
      RenderEntries(entries, setterNames, locale)[i]
      == TextSetterCall(entries[i].0, SearchI18NCompatibleMethod(entries[i].0, setterNames).value,
                        LocaleStore.Text(locale, entries[i].1))
  {
    if |entries| > 0 {
      var tail := entries[1..];
      assert forall i :: 0 <= i < |tail| ==> tail[i] == entries[i + 1];
      RenderVisitsEveryEntry(tail, setterNames, locale);
      var head := TryRenderComponent(entries[0].0, entries[0].1, setterNames, locale);
      var rest := RenderEntries(tail, setterNames, locale);
      assert RenderEntries(entries, setterNames, locale) == head + rest;
      assert |head| == 1;
    }
  }

  /** A render pass over two runs of entries is the pass over the first followed by the pass over the second. */
  lemma {:induction false} RenderConcat(a: seq<(Obj, string)>, b: seq<(Obj, string)>, setterNames: seq<string>, locale: LocaleStore.Locale)
    ensures RenderEntries(a + b, setterNames, locale) == RenderEntries(a, setterNames, locale) + RenderEntries(b, setterNames, locale)
  {
    if |a| == 0 {
      assert a + b == b;
    } else {
      assert (a + b)[0] == a[0];
      assert (a + b)[1..] == a[1..] + b;
      RenderConcat(a[1..], b, setterNames, locale);
    }
  }

  /**
   * After `releaseComponent(o)`, a render pass is the pass before it with
   * `o`'s own call taken out.
   */
  lemma RenderAfterRelease(c: Container, i: nat, setterNames: seq<string>, locale: LocaleStore.Locale)
    requires c.Valid() && i < |c.components|
    ensures Render(ReleaseComponent(c, c.components[i].0), setterNames, locale)
            == RenderEntries(c.components[..i], setterNames, locale) + RenderEntries(c.components[i + 1..], setterNames, locale)
  {
    LinkedMap.RemoveDeletesOneEntry(c.components, i);
    RenderConcat(c.components[..i], c.components[i + 1..], setterNames, locale);
  }

  /** Some registered object has a text setter, so a render pass looks up text. */
  predicate NeedsLocale(c: Container, setterNames: seq<string>) {
    exists i :: 0 <= i < |c.components| && SearchI18NCompatibleMethod(c.components[i].0, setterNames).Some?
  }

  /**
   * `render()` against the active locale, which is null until one is
   * loaded: then the first registered object with a text setter throws,
   * before any setter is called, and a pass that needs no text makes no call.
   */
  function RenderActive(c: Container, setterNames: seq<string>, locale: Option<LocaleStore.Locale>): (r: Try<seq<Effect>>)
    ensures r.Threw? <==> locale.None? && NeedsLocale(c, setterNames)
    ensures r.Returned? ==> forall l :: locale == Some(l) || locale.None? ==> r.value == Render(c, setterNames, l)
  {
    match locale
    case Some(l) => Returned(Render(c, setterNames, l))
    case None =>
      if NeedsLocale(c, setterNames) then Threw
      else
        assert forall l :: Render(c, setterNames, l) == [] by {
          forall l ensures Render(c, setterNames, l) == [] {
            RenderWithoutSetters(c.components, setterNames, l);
          }
        }
        Returned([])
  }

  /** A pass over objects none of which has a text setter makes no call. */
  lemma {:induction false} RenderWithoutSetters(entries: seq<(Obj, string)>, setterNames: seq<string>, locale: LocaleStore.Locale)
    requires forall i :: 0 <= i < |entries| ==> SearchI18NCompatibleMethod(entries[i].0, setterNames).None?
    ensures RenderEntries(entries, setterNames, locale) == []
  {
    if |entries| > 0 {
      assert forall i :: 0 <= i < |entries[1..]| ==> entries[1..][i] == entries[i + 1];
      RenderWithoutSetters(entries[1..], setterNames, locale);
    }
  }

  // ---------------------------------------------------------------- registration

  /** `releaseComponent(o)`: remove only `o`; a no-op when it is not registered. */
  function ReleaseComponent(c: Container, component: Obj): (r: Container)
    ensures r.self == c.self && r.frame == c.frame
    ensures !LinkedMap.HasKey(r.components, component)
    ensures forall o :: o != component ==> LinkedMap.Get(r.components, o) == LinkedMap.Get(c.components, o)
    ensures !LinkedMap.HasKey(c.components, component) ==> r == c
    ensures c.Valid() ==> r.Valid()
  {
    c.(components := LinkedMap.Remove(c.components, component))
  }

  /**
   * `components.put(o, key)`: `o` now maps to `key`, every other object keeps
   * its key, and the objects registered before keep their positions.
   */
  function Register(c: Container, component: Obj, key: string): (r: Container)
    ensures r.self == c.self && r.frame == c.frame
    ensures LinkedMap.Get(r.components, component) == Some(key)
    ensures forall o :: o != component ==> LinkedMap.Get(r.components, o) == LinkedMap.Get(c.components, o)
    ensures |c.components| <= |r.components|
    ensures forall i :: 0 <= i < |c.components| ==> r.components[i].0 == c.components[i].0
    ensures !LinkedMap.HasKey(c.components, component) ==> r.components == c.components + [(component, key)]
    ensures c.Valid() ==> r.Valid()
  {
    c.(components := LinkedMap.Put(c.components, component, key))
  }

  /** The outcome of `packComponent`: whether it registered, the registry after, and the calls made. */
  datatype Packing = Packing(ok: bool, container: Container, log: seq<Effect>)

  /**
   * `packComponent(o, key)`: refuse a null object or a key with no text in
   * the active locale; otherwise register `o` under `key` (in place if it is
   * already registered) and render it at once, with non-null text.
   */
  function PackComponent(c: Container, component: Option<Obj>, key: string,
                         setterNames: seq<string>, locale: LocaleStore.Locale): (r: Packing)
    ensures !r.ok <==> component.None? || LocaleStore.Text(locale, key).None?
    ensures !r.ok ==> r.container == c && r.log == []
    ensures r.ok ==> r.container == Register(c, component.value, key)
    ensures r.ok ==> r.log == TryRenderComponent(component.value, key, setterNames, locale)
    ensures r.ok ==> forall e :: e in r.log ==> e.TextSetterCall? && e.text.Some?
  {
    if component.None? || LocaleStore.Text(locale, key).None? then Packing(false, c, [])
    else
      var o := component.value;
      Packing(true, Register(c, o, key), TryRenderComponent(o, key, setterNames, locale))
  }

  /** The outcome of `newComponent`: the registry after, the new object or null, and the calls made. */
  datatype Creation = Creation(container: Container, component: Option<Obj>, log: seq<Effect>)

  /**
   * `newCompatibleComponent(cls, key, args)`: resolve a constructor; when
   * none fits the source dereferences null and throws (as it does for a
   * null argument reached by the check). A construction that throws gives
   * null; a new object, with identity `newId`, is registered under `key`
   * and rendered at once.
   */
  function NewCompatibleComponent(c: Container, cls: ClassDecl, key: string, args: seq<Option<Obj>>, newId: nat,
                                  setterNames: seq<string>, locale: LocaleStore.Locale, w: World): (r: Try<Creation>)
    ensures r.Threw? <==> !GetConstructor(cls, args).Returned? || GetConstructor(cls, args).value.None?
    ensures r.Returned? ==> (r.value.component.None? <==> !w.instantiate(cls, args))
    ensures r.Returned? && r.value.component.None? ==> r.value.container == c && r.value.log == [Construct(cls, args)]
    ensures r.Returned? && r.value.component.Some? ==>
      && r.value.component.value == Obj(newId, cls)
      && r.value.container == Register(c, r.value.component.value, key)
      && r.value.log == [Construct(cls, args)] + TryRenderComponent(r.value.component.value, key, setterNames, locale)
    ensures r.Returned? && r.value.component.Some? && c.AllocatedBelow(newId) ==>
      && !LinkedMap.HasKey(c.components, r.value.component.value)
      && r.value.container.components == c.components + [(r.value.component.value, key)]
      && r.value.container.AllocatedBelow(newId + 1)
  {
    match GetConstructor(cls, args)
    case Threw => Threw
    case Returned(None) => Threw
    case Returned(Some(_)) =>
      if !w.instantiate(cls, args) then Returned(Creation(c, None, [Construct(cls, args)]))
      else
        var o := Obj(newId, cls);
        Returned(Creation(Register(c, o, key), Some(o),
                          [Construct(cls, args)] + TryRenderComponent(o, key, setterNames, locale)))
  }

  /**
   * `newComponent(cls, key, args)`: as `newCompatibleComponent`, with every
   * exception turned into a null result. On null the registry is unchanged;
   * otherwise the new object, built by a public constructor of the
   * arguments' arity, is registered under `key`, after every object
   * registered before it.
   */
  function NewComponent(c: Container, cls: ClassDecl, key: string, args: seq<Option<Obj>>, newId: nat,
                        setterNames: seq<string>, locale: LocaleStore.Locale, w: World): (r: Creation)
    ensures r.component.None? ==> r.container == c
    ensures r.component.Some? ==>
      && GetConstructor(cls, args).Returned? && GetConstructor(cls, args).value.Some?
      && |GetConstructor(cls, args).value.value.params| == |args|
      && w.instantiate(cls, args)
      && r.component.value == Obj(newId, cls)
      && r.container == Register(c, r.component.value, key)
    ensures r.component.Some? && c.AllocatedBelow(newId) ==>
      r.container.components == c.components + [(r.component.value, key)]
    ensures r.component.None? <==>
      !GetConstructor(cls, args).Returned? || GetConstructor(cls, args).value.None? || !w.instantiate(cls, args)
  {
    match NewCompatibleComponent(c, cls, key, args, newId, setterNames, locale, w)
    case Threw => Creation(c, None, [])
    case Returned(created) => created
  }

  // ---------------------------------------------------------------- auto-wiring

  /** The key of the first `@I18N` annotation. */
  function I18nKey(annotations: seq<Annotation>): string
    requires IsAnnotationPresent(annotations, I18NMarker)
  {
    if annotations[0].I18N? then annotations[0].key
    else
      assert forall i :: 1 <= i < |annotations| ==> annotations[1..][i - 1] == annotations[i];
      I18nKey(annotations[1..])
  }

  /**
   * The value `injectObject(field)` returns for an `@I18N` field of the
   * frame, when an instance it constructs gets identity `newId`.
   */
  function Injected(frame: Obj, field: Member<FieldDecl>, newId: nat, w: World): Option<Obj> {
    InjectObject(frame, field, true, None, newId, w).result
  }

  /** The value the first pass injects into `fields[i]`: an instance constructed there gets identity `next + i`. */
  function FieldValue(frame: Obj, fields: seq<Member<FieldDecl>>, next: nat, w: World, i: nat): Option<Obj>
    requires i < |fields|
  {
    Injected(frame, fields[i], next + i, w)
  }

  /** The value a field holds before injection, as its getter or a direct read gives it; null when that throws. */
  function Held(frame: Obj, field: Member<FieldDecl>, w: World): Option<Obj> {
    ReadExisting(frame, field, None, w).0
  }

  /** Every object the fields already hold was allocated before identity `next`. */
  predicate HeldBelow(frame: Obj, fields: seq<Member<FieldDecl>>, next: nat, w: World) {
    forall j :: 0 <= j < |fields| && Held(frame, fields[j], w).Some? ==> Held(frame, fields[j], w).value.id < next
  }

  /**
   * The first pass of `autoWired`: inject each `@I18N` field in order and
   * register each non-null result under the field's key. Instances it
   * constructs get identities from `next` on, one per field.
   */
  function WireI18nFields(c: Container, frame: Obj, fields: seq<Member<FieldDecl>>, next: nat, w: World): (r: (Container, seq<Effect>))
    requires forall f :: f in fields ==> IsAnnotationPresent(f.decl.annotations, I18NMarker)
    ensures r.0.self == c.self && r.0.frame == c.frame
    ensures c.Valid() ==> r.0.Valid()
    ensures |c.components| <= |r.0.components|
    ensures forall i :: 0 <= i < |c.components| ==> r.0.components[i].0 == c.components[i].0
    ensures NoInitializerCall(r.1)
    decreases |fields|
  {
    if |fields| == 0 then (c, [])
    else
      var f := fields[0];
      var injection := InjectObject(frame, f, true, None, next, w);
      var c1 := if injection.result.Some? then Register(c, injection.result.value, I18nKey(f.decl.annotations)) else c;
      assert forall i :: 1 <= i < |fields| ==> fields[1..][i - 1] == fields[i];
      var (c2, restLog) := WireI18nFields(c1, frame, fields[1..], next + 1, w);
      InjectionCallsNoInitializer(frame, f, true, None, next, w);
      NoInitializerCallConcat(injection.log, restLog);
      (c2, injection.log + restLog)
  }

  /**
   * The second pass of `autoWired`: write the registry itself into each
   * `@Container` field. The value is given, so nothing is constructed and
   * the identity passed to `InjectObject` is never used.
   */
  function WireContainerFields(c: Container, frame: Obj, fields: seq<Member<FieldDecl>>, w: World): (log: seq<Effect>)
    ensures |log| == |fields|
    ensures forall i :: 0 <= i < |fields| ==> log[i] == WriteEffect(frame, fields[i], c.self)
    ensures NoInitializerCall(log)
  {
    if |fields| == 0 then []
    else
      var injection := InjectObject(frame, fields[0], false, Some(c.self), 0, w);
      var rest := WireContainerFields(c, frame, fields[1..], w);
      assert forall i :: 1 <= i < |fields| ==> fields[1..][i - 1] == fields[i];
      InjectionCallsNoInitializer(frame, fields[0], false, Some(c.self), 0, w);
      NoInitializerCallConcat(injection.log, rest);
      injection.log + rest
  }

  /** The registered objects are exactly the values the first pass injects into `fields`. */
  ghost predicate RegistersFieldValues(components: seq<(Obj, string)>, frame: Obj, fields: seq<Member<FieldDecl>>, next: nat, w: World) {
    forall o :: LinkedMap.HasKey(components, o) <==>
      exists i :: 0 <= i < |fields| && FieldValue(frame, fields, next, w, i) == Some(o)
  }

  /** The outcome of `autoWired`: the registry after, the calls made, and whether the final render pass completed. */
  datatype Wiring = Wiring(container: Container, log: seq<Effect>, rendered: bool)

  /**
   * `autoWired()`: register each `@I18N` field whose injection gives a
   * value under its annotation key, write the registry into each
   * `@Container` field, then render everything with the active locale,
   * which may still be null. Instances constructed for null fields get
   * identities from `next` on.
   */
  function AutoWired(c: Container, setterNames: seq<string>, locale: Option<LocaleStore.Locale>, next: nat, w: World): (r: Wiring)
    requires c.frame.Some?
    ensures r.container.self == c.self && r.container.frame == c.frame
    ensures c.Valid() ==> r.container.Valid()
    ensures |c.components| <= |r.container.components|
    ensures forall i :: 0 <= i < |c.components| ==> r.container.components[i].0 == c.components[i].0
    ensures var fields := SearchFieldByAnnotation(c.frame.value, I18NMarker);
      forall i :: 0 <= i < |fields| && FieldValue(c.frame.value, fields, next, w, i).Some?
                  ==> LinkedMap.HasKey(r.container.components, FieldValue(c.frame.value, fields, next, w, i).value)
    ensures var fields := SearchFieldByAnnotation(c.frame.value, I18NMarker);
      forall o :: LinkedMap.HasKey(r.container.components, o) ==>
        LinkedMap.HasKey(c.components, o) || exists i :: 0 <= i < |fields| && FieldValue(c.frame.value, fields, next, w, i) == Some(o)
    ensures var containerFields := SearchFieldByAnnotation(c.frame.value, ContainerMarker);
      forall f :: f in containerFields ==> WriteEffect(c.frame.value, f, c.self) in r.log
    ensures c.components == [] ==>
      RegistersFieldValues(r.container.components, c.frame.value, SearchFieldByAnnotation(c.frame.value, I18NMarker), next, w)
    ensures KeyedByFields(r.container.components, c.frame.value, SearchFieldByAnnotation(c.frame.value, I18NMarker), next, w)
    ensures FirstSeenOrder(r.container.components, c.components, c.frame.value, SearchFieldByAnnotation(c.frame.value, I18NMarker), next, w)
    ensures var fields := SearchFieldByAnnotation(c.frame.value, I18NMarker);
      HeldBelow(c.frame.value, fields, next, w) ==>
        && ConstructedKeyed(r.container.components, c.frame.value, fields, next, w)
        && (c.AllocatedBelow(next) ==> r.container.AllocatedBelow(next + |fields|))
    ensures r.rendered <==> locale.Some? || !NeedsLocale(r.container, setterNames)
    ensures locale.Some? ==> var pass := Render(r.container, setterNames, locale.value);
      |pass| <= |r.log| && r.log[|r.log| - |pass|..] == pass
    ensures NoInitializerCall(r.log)
  {
    var frame := c.frame.value;
    var i18nFields := SearchFieldByAnnotation(frame, I18NMarker);
    var wired := WireI18nFields(c, frame, i18nFields, next, w);
    RegisteredFieldValues(c, frame, i18nFields, next, w);
    RegistersExactly(c, frame, i18nFields, next, w);
    FieldKeys(c, frame, i18nFields, next, w);
    WiringOrders(c, frame, i18nFields, next, w);
    WiredFresh(c, frame, i18nFields, next, w);
    var log2 := WireContainerFields(wired.0, frame, SearchFieldByAnnotation(frame, ContainerMarker), w);
    var render := RenderActive(wired.0, setterNames, locale);
    var pass := if render.Returned? then render.value else [];
    var log := wired.1 + log2 + pass;
    NoInitializerCallConcat(wired.1, log2);
    NoInitializerCallConcat(wired.1 + log2, pass);
    assert log[|log| - |pass|..] == pass;
    Wiring(wired.0, log, render.Returned?)
  }

  /** The first pass never unregisters anything. */
  lemma {:induction false} WiringKeepsKeys(c: Container, frame: Obj, fields: seq<Member<FieldDecl>>, next: nat, w: World, o: Obj)
    requires forall f :: f in fields ==> IsAnnotationPresent(f.decl.annotations, I18NMarker)
    requires LinkedMap.HasKey(c.components, o)
    ensures LinkedMap.HasKey(WireI18nFields(c, frame, fields, next, w).0.components, o)
    decreases |fields|
  {
    if |fields| > 0 {
      var f := fields[0];
      var injection := InjectObject(frame, f, true, None, next, w);
      var c1 := if injection.result.Some? then Register(c, injection.result.value, I18nKey(f.decl.annotations)) else c;
      assert LinkedMap.Get(c1.components, o).Some?;
      assert forall g :: g in fields[1..] ==> g in fields;
      WiringKeepsKeys(c1, frame, fields[1..], next + 1, w, o);
    }
  }

  /** An object that no field's injection gives keeps the key it had before the first pass. */
  lemma {:induction false} WiringLeavesOthers(c: Container, frame: Obj, fields: seq<Member<FieldDecl>>, next: nat, w: World, o: Obj)
    requires forall f :: f in fields ==> IsAnnotationPresent(f.decl.annotations, I18NMarker)
    requires forall j :: 0 <= j < |fields| ==> FieldValue(frame, fields, next, w, j) != Some(o)
    ensures LinkedMap.Get(WireI18nFields(c, frame, fields, next, w).0.components, o) == LinkedMap.Get(c.components, o)
    decreases |fields|
  {
    if |fields| > 0 {
      var f := fields[0];
      var tail := fields[1..];
      var injection := InjectObject(frame, f, true, None, next, w);
      var c1 := if injection.result.Some? then Register(c, injection.result.value, I18nKey(f.decl.annotations)) else c;
      assert FieldValue(frame, fields, next, w, 0) == injection.result;
      assert LinkedMap.Get(c1.components, o) == LinkedMap.Get(c.components, o);
      assert forall g :: g in tail ==> g in fields;
      var next1 := next + 1;
      forall j | 0 <= j < |tail|
        ensures FieldValue(frame, tail, next1, w, j) != Some(o)
      {
        assert tail[j] == fields[j + 1];
        assert FieldValue(frame, tail, next1, w, j) == FieldValue(frame, fields, next, w, j + 1);
      }
      WiringLeavesOthers(c1, frame, tail, next + 1, w, o);
    }
  }

  /** Field `i`'s injection gives an object that no later field gives. */
  predicate LastToGive(frame: Obj, fields: seq<Member<FieldDecl>>, next: nat, w: World, i: nat)
    requires i < |fields|
  {
    FieldValue(frame, fields, next, w, i).Some?
    && forall j :: i < j < |fields| ==> FieldValue(frame, fields, next, w, j) != FieldValue(frame, fields, next, w, i)
  }

  /** The registry after the first pass has handled the first of `fields`. */
  function AfterFirstField(c: Container, frame: Obj, fields: seq<Member<FieldDecl>>, next: nat, w: World): (r: Container)
    requires |fields| > 0 && IsAnnotationPresent(fields[0].decl.annotations, I18NMarker)
    requires forall f :: f in fields ==> IsAnnotationPresent(f.decl.annotations, I18NMarker)
    ensures WireI18nFields(c, frame, fields, next, w).0 == WireI18nFields(r, frame, fields[1..], next + 1, w).0
    ensures FieldValue(frame, fields, next, w, 0).Some? ==>
      LinkedMap.Get(r.components, FieldValue(frame, fields, next, w, 0).value) == Some(I18nKey(fields[0].decl.annotations))
  {
    assert forall g :: g in fields[1..] ==> g in fields;
    var injection := InjectObject(frame, fields[0], true, None, next, w);
    if injection.result.Some? then Register(c, injection.result.value, I18nKey(fields[0].decl.annotations)) else c
  }

  /**
   * After the first pass, the object a field's injection gives is
   * registered under that field's `@I18N` key, unless a later field gives
   * the same object: each `put` replaces the key, so the last one wins.
   */
  lemma {:induction false} FieldKey(c: Container, frame: Obj, fields: seq<Member<FieldDecl>>, next: nat, w: World, i: nat)
    requires forall f :: f in fields ==> IsAnnotationPresent(f.decl.annotations, I18NMarker)
    requires i < |fields| && LastToGive(frame, fields, next, w, i)
    ensures LinkedMap.Get(WireI18nFields(c, frame, fields, next, w).0.components, FieldValue(frame, fields, next, w, i).value)
            == Some(I18nKey(fields[i].decl.annotations))
    decreases |fields|
  {
    if i == 0 {
      FieldKeyFirst(c, frame, fields, next, w);
    } else {
      var c1 := AfterFirstField(c, frame, fields, next, w);
      assert forall g :: g in fields[1..] ==> g in fields;
      LastToGiveInTail(frame, fields, next, w, i);
      FieldKey(c1, frame, fields[1..], next + 1, w, i - 1);
    }
  }

  /** A later field that is the last to give its object is still the last among the fields after the first. */
  lemma LastToGiveInTail(frame: Obj, fields: seq<Member<FieldDecl>>, next: nat, w: World, i: nat)
    requires 0 < i < |fields| && LastToGive(frame, fields, next, w, i)
    ensures FieldValue(frame, fields[1..], next + 1, w, i - 1) == FieldValue(frame, fields, next, w, i)
    ensures LastToGive(frame, fields[1..], next + 1, w, i - 1)
  {
    var tail := fields[1..];
    var next1 := next + 1;
    assert tail[i - 1] == fields[i];
    forall j | i - 1 < j < |tail|
      ensures FieldValue(frame, tail, next1, w, j) != FieldValue(frame, tail, next1, w, i - 1)
    {
      assert tail[j] == fields[j + 1];
      assert FieldValue(frame, tail, next1, w, j) == FieldValue(frame, fields, next, w, j + 1);
    }
  }

  /** `FieldKey` for the first field: its object, given by no later field, keeps its key through the rest of the pass. */
  lemma FieldKeyFirst(c: Container, frame: Obj, fields: seq<Member<FieldDecl>>, next: nat, w: World)
    requires forall f :: f in fields ==> IsAnnotationPresent(f.decl.annotations, I18NMarker)
    requires |fields| > 0 && LastToGive(frame, fields, next, w, 0)
    ensures LinkedMap.Get(WireI18nFields(c, frame, fields, next, w).0.components, FieldValue(frame, fields, next, w, 0).value)
            == Some(I18nKey(fields[0].decl.annotations))
  {
    var c1 := AfterFirstField(c, frame, fields, next, w);
    var o := FieldValue(frame, fields, next, w, 0).value;
    var tail := fields[1..];
    var next1 := next + 1;
    assert forall g :: g in tail ==> g in fields;
    forall j | 0 <= j < |tail|
      ensures FieldValue(frame, tail, next1, w, j) != Some(o)
    {
      assert tail[j] == fields[j + 1];
      assert FieldValue(frame, tail, next1, w, j) == FieldValue(frame, fields, next, w, j + 1);
    }
    WiringLeavesOthers(c1, frame, tail, next1, w, o);
  }

  /** Every field whose object no later field gives has that object registered under its own key. */
  predicate KeyedByFields(components: seq<(Obj, string)>, frame: Obj, fields: seq<Member<FieldDecl>>, next: nat, w: World)
    requires forall f :: f in fields ==> IsAnnotationPresent(f.decl.annotations, I18NMarker)
  {
    forall i :: 0 <= i < |fields| && LastToGive(frame, fields, next, w, i) ==>
      LinkedMap.Get(components, FieldValue(frame, fields, next, w, i).value) == Some(I18nKey(fields[i].decl.annotations))
  }

  /** `FieldKey` for every field at once. */
  lemma FieldKeys(c: Container, frame: Obj, fields: seq<Member<FieldDecl>>, next: nat, w: World)
    requires forall f :: f in fields ==> IsAnnotationPresent(f.decl.annotations, I18NMarker)
    ensures KeyedByFields(WireI18nFields(c, frame, fields, next, w).0.components, frame, fields, next, w)
  {
    forall i | 0 <= i < |fields| && LastToGive(frame, fields, next, w, i)
      ensures LinkedMap.Get(WireI18nFields(c, frame, fields, next, w).0.components, FieldValue(frame, fields, next, w, i).value)
              == Some(I18nKey(fields[i].decl.annotations))
    {
      FieldKey(c, frame, fields, next, w, i);
    }
  }

  /** Field `j`'s injection gives an object that no earlier field gives. */
  predicate FirstToGive(frame: Obj, fields: seq<Member<FieldDecl>>, next: nat, w: World, j: nat)
    requires j < |fields|
  {
    FieldValue(frame, fields, next, w, j).Some?
    && forall k :: 0 <= k < j ==> FieldValue(frame, fields, next, w, k) != FieldValue(frame, fields, next, w, j)
  }

  /** `a` and `b` are both registered, `a` before `b`. */
  predicate OrderedIn(components: seq<(Obj, string)>, a: Obj, b: Obj) {
    && LinkedMap.HasKey(components, a)
    && LinkedMap.HasKey(components, b)
    && LinkedMap.IndexOf(components, a) < LinkedMap.IndexOf(components, b)
  }

  /**
   * The first pass registers objects in field order: an object that field
   * `j` is the first to give, and that was not registered before, comes
   * after the object of every earlier field.
   */
  predicate FirstSeenOrder(components: seq<(Obj, string)>, before: seq<(Obj, string)>,
                           frame: Obj, fields: seq<Member<FieldDecl>>, next: nat, w: World)
  {
    forall i, j :: 0 <= i < j < |fields| && FieldValue(frame, fields, next, w, i).Some? && FirstToGive(frame, fields, next, w, j)
                   && !LinkedMap.HasKey(before, FieldValue(frame, fields, next, w, j).value) ==>
      OrderedIn(components, FieldValue(frame, fields, next, w, i).value, FieldValue(frame, fields, next, w, j).value)
  }

  /** The fields after the first give the same values, one identity later. */
  lemma FieldValueInTail(frame: Obj, fields: seq<Member<FieldDecl>>, next: nat, w: World, k: nat)
    requires 0 < k < |fields|
    ensures FieldValue(frame, fields[1..], next + 1, w, k - 1) == FieldValue(frame, fields, next, w, k)
  {
    assert fields[1..][k - 1] == fields[k];
  }

  /** The entry the first pass puts for `fields[i]`: the injected object under the field's key, or nothing for null. */
  function FieldEntry(frame: Obj, fields: seq<Member<FieldDecl>>, next: nat, w: World, i: nat): Option<(Obj, string)>
    requires forall f :: f in fields ==> IsAnnotationPresent(f.decl.annotations, I18NMarker)
    requires i < |fields|
  {
    match FieldValue(frame, fields, next, w, i)
    case None => None
    case Some(o) => Some((o, I18nKey(fields[i].decl.annotations)))
  }

  /** The entries of the first pass, one per field, in field order. */
  function FieldEntries(frame: Obj, fields: seq<Member<FieldDecl>>, next: nat, w: World): (es: seq<Option<(Obj, string)>>)
    requires forall f :: f in fields ==> IsAnnotationPresent(f.decl.annotations, I18NMarker)
    ensures |es| == |fields|
  {
    seq(|fields|, i requires 0 <= i < |fields| => FieldEntry(frame, fields, next, w, i))
  }

  /** Entry `k` holds field `k`'s injected object, or nothing when that is null. */
  lemma FieldEntryOf(frame: Obj, fields: seq<Member<FieldDecl>>, next: nat, w: World, k: nat)
    requires forall f :: f in fields ==> IsAnnotationPresent(f.decl.annotations, I18NMarker)
    requires k < |fields|
    ensures FieldEntries(frame, fields, next, w)[k].Some? <==> FieldValue(frame, fields, next, w, k).Some?
    ensures FieldValue(frame, fields, next, w, k).Some? ==>
      FieldEntries(frame, fields, next, w)[k].value.0 == FieldValue(frame, fields, next, w, k).value
  {
  }

  /** The fields after the first give the entries after the first, one identity later. */
  lemma FieldEntriesTail(frame: Obj, fields: seq<Member<FieldDecl>>, next: nat, w: World)
    requires forall f :: f in fields ==> IsAnnotationPresent(f.decl.annotations, I18NMarker)
    requires |fields| > 0
    ensures forall g :: g in fields[1..] ==> IsAnnotationPresent(g.decl.annotations, I18NMarker)
    ensures FieldEntries(frame, fields[1..], next + 1, w) == FieldEntries(frame, fields, next, w)[1..]
  {
    var es := FieldEntries(frame, fields, next, w);
    var tail := fields[1..];
    var next1 := next + 1;
    assert forall g :: g in tail ==> g in fields;
    var rest := FieldEntries(frame, tail, next1, w);
    forall k | 0 <= k < |tail|
      ensures rest[k] == es[k + 1]
    {
      FieldEntryInTail(frame, fields, next, w, k + 1);
    }
  }

  /** `FieldValueInTail` for entries. */
  lemma FieldEntryInTail(frame: Obj, fields: seq<Member<FieldDecl>>, next: nat, w: World, k: nat)
    requires forall f :: f in fields ==> IsAnnotationPresent(f.decl.annotations, I18NMarker)
    requires 0 < k < |fields|
    ensures forall g :: g in fields[1..] ==> IsAnnotationPresent(g.decl.annotations, I18NMarker)
    ensures FieldEntry(frame, fields[1..], next + 1, w, k - 1) == FieldEntry(frame, fields, next, w, k)
  {
    assert forall g :: g in fields[1..] ==> g in fields;
    FieldValueInTail(frame, fields, next, w, k);
    assert fields[1..][k - 1] == fields[k];
  }

  /** Handling the first field puts its entry, if any. */
  lemma FirstEntryPut(c: Container, frame: Obj, fields: seq<Member<FieldDecl>>, next: nat, w: World)
    requires forall f :: f in fields ==> IsAnnotationPresent(f.decl.annotations, I18NMarker)
    requires |fields| > 0
    ensures AfterFirstField(c, frame, fields, next, w).components == LinkedMap.PutEntry(c.components, FieldEntries(frame, fields, next, w)[0])
  {
  }

  /** The first pass is `PutEach` over the fields' entries: one `put` per non-null injection, in field order. */
  lemma {:induction false} WiringPutsEach(c: Container, frame: Obj, fields: seq<Member<FieldDecl>>, next: nat, w: World)
    requires forall f :: f in fields ==> IsAnnotationPresent(f.decl.annotations, I18NMarker)
    ensures WireI18nFields(c, frame, fields, next, w).0.components == LinkedMap.PutEach(c.components, FieldEntries(frame, fields, next, w))
    decreases |fields|
  {
    if |fields| > 0 {
      FieldEntriesTail(frame, fields, next, w);
      FirstEntryPut(c, frame, fields, next, w);
      WiringPutsEach(AfterFirstField(c, frame, fields, next, w), frame, fields[1..], next + 1, w);
    }
  }

  /** No entry before that of a field that is the first to give its object has the same object. */
  lemma FirstEntry(frame: Obj, fields: seq<Member<FieldDecl>>, next: nat, w: World, j: nat)
    requires forall f :: f in fields ==> IsAnnotationPresent(f.decl.annotations, I18NMarker)
    requires j < |fields| && FirstToGive(frame, fields, next, w, j)
    ensures var es := FieldEntries(frame, fields, next, w);
      es[j].Some? && forall k :: 0 <= k < j && es[k].Some? ==> es[k].value.0 != es[j].value.0
  {
    var es := FieldEntries(frame, fields, next, w);
    FieldEntryOf(frame, fields, next, w, j);
    forall k | 0 <= k < j && es[k].Some?
      ensures es[k].value.0 != es[j].value.0
    {
      FieldEntryOf(frame, fields, next, w, k);
    }
  }

  /**
   * `LinkedHashMap.put` appends a new key: the object of field `i` is
   * registered before that of a later field `j` that is the first to give
   * it, when `j`'s object was not registered before the pass.
   */
  lemma WiringOrder(c: Container, frame: Obj, fields: seq<Member<FieldDecl>>, next: nat, w: World, i: nat, j: nat)
    requires forall f :: f in fields ==> IsAnnotationPresent(f.decl.annotations, I18NMarker)
    requires i < j < |fields| && FieldValue(frame, fields, next, w, i).Some? && FirstToGive(frame, fields, next, w, j)
    requires !LinkedMap.HasKey(c.components, FieldValue(frame, fields, next, w, j).value)
    ensures OrderedIn(WireI18nFields(c, frame, fields, next, w).0.components,
                      FieldValue(frame, fields, next, w, i).value, FieldValue(frame, fields, next, w, j).value)
  {
    WiringPutsEach(c, frame, fields, next, w);
    FieldEntryOf(frame, fields, next, w, i);
    FieldEntryOf(frame, fields, next, w, j);
    FirstEntry(frame, fields, next, w, j);
    LinkedMap.PutEachOrder(c.components, FieldEntries(frame, fields, next, w), i, j);
  }

  /** `WiringOrder` for every pair of fields at once. */
  lemma WiringOrders(c: Container, frame: Obj, fields: seq<Member<FieldDecl>>, next: nat, w: World)
    requires forall f :: f in fields ==> IsAnnotationPresent(f.decl.annotations, I18NMarker)
    ensures FirstSeenOrder(WireI18nFields(c, frame, fields, next, w).0.components, c.components, frame, fields, next, w)
  {
    forall i, j | 0 <= i < j < |fields| && FieldValue(frame, fields, next, w, i).Some? && FirstToGive(frame, fields, next, w, j)
                  && !LinkedMap.HasKey(c.components, FieldValue(frame, fields, next, w, j).value)
      ensures OrderedIn(WireI18nFields(c, frame, fields, next, w).0.components,
                        FieldValue(frame, fields, next, w, i).value, FieldValue(frame, fields, next, w, j).value)
    {
      WiringOrder(c, frame, fields, next, w, i, j);
    }
  }

  /**
   * The object injected into field `i` is the one the field already held
   * or, when it held null, a new instance with identity `next + i`.
   */
  lemma FieldIdentity(frame: Obj, fields: seq<Member<FieldDecl>>, next: nat, w: World, i: nat)
    requires i < |fields| && FieldValue(frame, fields, next, w, i).Some?
    ensures Held(frame, fields[i], w).Some? ==> FieldValue(frame, fields, next, w, i) == Held(frame, fields[i], w)
    ensures Held(frame, fields[i], w).None? ==>
      && fields[i].decl.fieldType in w.types
      && FieldValue(frame, fields, next, w, i).value == Obj(next + i, w.types[fields[i].decl.fieldType])
  {
    var built := ConstructDefault(fields[i].decl.fieldType, next + i, w);
    if Held(frame, fields[i], w).None? {
      assert built.0.Some?;
    }
  }

  /**
   * When the fields held only objects allocated before `next`, a field
   * that held null has its new instance registered under its own key: no
   * other field's injection gives that instance.
   */
  lemma ConstructedFieldKey(c: Container, frame: Obj, fields: seq<Member<FieldDecl>>, next: nat, w: World, i: nat)
    requires forall f :: f in fields ==> IsAnnotationPresent(f.decl.annotations, I18NMarker)
    requires HeldBelow(frame, fields, next, w)
    requires i < |fields| && Held(frame, fields[i], w).None? && FieldValue(frame, fields, next, w, i).Some?
    ensures LinkedMap.Get(WireI18nFields(c, frame, fields, next, w).0.components, FieldValue(frame, fields, next, w, i).value)
            == Some(I18nKey(fields[i].decl.annotations))
  {
    FieldIdentity(frame, fields, next, w, i);
    forall j | i < j < |fields| && FieldValue(frame, fields, next, w, j).Some?
      ensures FieldValue(frame, fields, next, w, j) != FieldValue(frame, fields, next, w, i)
    {
      FieldIdentity(frame, fields, next, w, j);
    }
    FieldKey(c, frame, fields, next, w, i);
  }

  /** Every field that held null and was injected has its new instance registered under its own key. */
  predicate ConstructedKeyed(components: seq<(Obj, string)>, frame: Obj, fields: seq<Member<FieldDecl>>, next: nat, w: World)
    requires forall f :: f in fields ==> IsAnnotationPresent(f.decl.annotations, I18NMarker)
  {
    forall i :: 0 <= i < |fields| && Held(frame, fields[i], w).None? && FieldValue(frame, fields, next, w, i).Some? ==>
      LinkedMap.Get(components, FieldValue(frame, fields, next, w, i).value) == Some(I18nKey(fields[i].decl.annotations))
  }

  /** `ConstructedFieldKey` for every field at once. */
  lemma ConstructedKeys(c: Container, frame: Obj, fields: seq<Member<FieldDecl>>, next: nat, w: World)
    requires forall f :: f in fields ==> IsAnnotationPresent(f.decl.annotations, I18NMarker)
    requires HeldBelow(frame, fields, next, w)
    ensures ConstructedKeyed(WireI18nFields(c, frame, fields, next, w).0.components, frame, fields, next, w)
  {
    forall i | 0 <= i < |fields| && Held(frame, fields[i], w).None? && FieldValue(frame, fields, next, w, i).Some?
      ensures LinkedMap.Get(WireI18nFields(c, frame, fields, next, w).0.components, FieldValue(frame, fields, next, w, i).value)
              == Some(I18nKey(fields[i].decl.annotations))
    {
      ConstructedFieldKey(c, frame, fields, next, w, i);
    }
  }

  /**
   * When the fields held only objects allocated before `next`, the new
   * instances of the first pass are each registered under their own field's
   * key, and the pass hands out one identity per field.
   */
  lemma WiredFresh(c: Container, frame: Obj, fields: seq<Member<FieldDecl>>, next: nat, w: World)
    requires forall f :: f in fields ==> IsAnnotationPresent(f.decl.annotations, I18NMarker)
    ensures HeldBelow(frame, fields, next, w) ==>
      && ConstructedKeyed(WireI18nFields(c, frame, fields, next, w).0.components, frame, fields, next, w)
      && (c.AllocatedBelow(next) ==> WireI18nFields(c, frame, fields, next, w).0.AllocatedBelow(next + |fields|))
  {
    if HeldBelow(frame, fields, next, w) {
      ConstructedKeys(c, frame, fields, next, w);
      if c.AllocatedBelow(next) {
        WiredAllocatedBelow(c, frame, fields, next, w);
      }
    }
  }

  /**
   * After the first pass, every field whose injection gives a value has it
   * registered, and every registered object was registered before or is
   * such a value.
   */
  lemma {:induction false} RegisteredFieldValues(c: Container, frame: Obj, fields: seq<Member<FieldDecl>>, next: nat, w: World)
    requires forall f :: f in fields ==> IsAnnotationPresent(f.decl.annotations, I18NMarker)
    decreases |fields|
    ensures forall i :: 0 <= i < |fields| && FieldValue(frame, fields, next, w, i).Some?
                        ==> LinkedMap.HasKey(WireI18nFields(c, frame, fields, next, w).0.components, FieldValue(frame, fields, next, w, i).value)
    ensures forall o :: LinkedMap.HasKey(WireI18nFields(c, frame, fields, next, w).0.components, o) ==>
      LinkedMap.HasKey(c.components, o) || exists i :: 0 <= i < |fields| && FieldValue(frame, fields, next, w, i) == Some(o)
  {
    var final := WireI18nFields(c, frame, fields, next, w).0.components;
    if |fields| > 0 {
      var f := fields[0];
      var tail := fields[1..];
      var injection := InjectObject(frame, f, true, None, next, w);
      var c1 := if injection.result.Some? then Register(c, injection.result.value, I18nKey(f.decl.annotations)) else c;
      assert forall g :: g in tail ==> g in fields;
      assert forall j :: 0 <= j < |tail| ==> tail[j] == fields[j + 1];
      RegisteredFieldValues(c1, frame, tail, next + 1, w);
      assert final == WireI18nFields(c1, frame, tail, next + 1, w).0.components;
      if injection.result.Some? {
        assert LinkedMap.Get(c1.components, injection.result.value).Some?;
        WiringKeepsKeys(c1, frame, tail, next + 1, w, injection.result.value);
      }
      forall i | 0 < i < |fields| && FieldValue(frame, fields, next, w, i).Some?
        ensures LinkedMap.HasKey(final, FieldValue(frame, fields, next, w, i).value)
      {
        assert FieldValue(frame, tail, next + 1, w, i - 1) == FieldValue(frame, fields, next, w, i);
      }
    }
    forall o | LinkedMap.HasKey(final, o)
      ensures LinkedMap.HasKey(c.components, o) || exists i :: 0 <= i < |fields| && FieldValue(frame, fields, next, w, i) == Some(o)
    {
      if forall i :: 0 <= i < |fields| ==> FieldValue(frame, fields, next, w, i) != Some(o) {
        WiringLeavesOthers(c, frame, fields, next, w, o);
      }
    }
  }

  /** Starting from an empty registry, the first pass registers exactly the values it injects. */
  lemma RegistersExactly(c: Container, frame: Obj, fields: seq<Member<FieldDecl>>, next: nat, w: World)
    requires forall f :: f in fields ==> IsAnnotationPresent(f.decl.annotations, I18NMarker)
    ensures c.components == [] ==> RegistersFieldValues(WireI18nFields(c, frame, fields, next, w).0.components, frame, fields, next, w)
  {
    RegisteredFieldValues(c, frame, fields, next, w);
  }

  /**
   * When everything registered or held was allocated before `next`, every
   * object registered after the first pass was allocated before
   * `next + |fields|`: the pass hands out one identity per field.
   */
  lemma WiredAllocatedBelow(c: Container, frame: Obj, fields: seq<Member<FieldDecl>>, next: nat, w: World)
    requires forall f :: f in fields ==> IsAnnotationPresent(f.decl.annotations, I18NMarker)
    requires c.AllocatedBelow(next) && HeldBelow(frame, fields, next, w)
    ensures WireI18nFields(c, frame, fields, next, w).0.AllocatedBelow(next + |fields|)
  {
    var final := WireI18nFields(c, frame, fields, next, w).0.components;
    RegisteredFieldValues(c, frame, fields, next, w);
    forall k | 0 <= k < |final|
      ensures final[k].0.id < next + |fields|
    {
      var o := final[k].0;
      assert LinkedMap.HasKey(final, o);
      if LinkedMap.HasKey(c.components, o) {
        var m :| 0 <= m < |c.components| && c.components[m].0 == o;
      } else {
        var i :| 0 <= i < |fields| && FieldValue(frame, fields, next, w, i) == Some(o);
        FieldIdentity(frame, fields, next, w, i);
      }
    }
  }
}

=== FILE: context.dfy ===
/**
 * The framework context (`Context`): process-wide state holding the text
 * setter names, the open frames' registries by frame id, the default
 * language, the active locale (null until one is installed) and the
 * language file search paths. Each static operation is a function from the
 * state before to the state after, plus the reflective calls it makes.
 */
module FrameworkContext {
  import opened Common
  import opened ReflectUtil
  import opened ComponentRegistry
  import LinkedMap
  import LocaleStore

  datatype Context = Context(
    setterNames: seq<string>,
    containers: map<string, Container>,
    language: string,
    locale: Option<LocaleStore.Locale>,
    searchPaths: seq<string>)

  const DefaultLanguage: string := "zh_CN"
  const DefaultSetter: string := "setText"
  const DefaultSearchPath: string := "languages"

  /**
   * What every reachable state keeps: the built-in setter name and search
   * path stay first in their lists, and every open frame's registry is a
   * proper map that still holds its frame.
   */
  predicate Wellformed(ctx: Context) {
    && |ctx.setterNames| > 0 && ctx.setterNames[0] == DefaultSetter
    && |ctx.searchPaths| > 0 && ctx.searchPaths[0] == DefaultSearchPath
    && forall id :: id in ctx.containers ==> ctx.containers[id].Valid() && ctx.containers[id].frame.Some?
  }

  /**
   * The state after class initialisation: `setText` is the only setter
   * name, `languages` the only search path, Simplified Chinese the default
   * language, and no locale is active yet.
   */
  function Initial(): (ctx: Context)
    ensures Wellformed(ctx)
    ensures |ctx.setterNames| == 1 && |ctx.searchPaths| == 1
    ensures ctx.containers == map[] && ctx.locale.None? && ctx.language == DefaultLanguage
  {
    Context([DefaultSetter], map[], DefaultLanguage, None, [DefaultSearchPath])
  }

  // ---------------------------------------------------------------- configuration

  /** `addI18nSearchMethod(name)`: `name` is tried after every name registered before it. */
  function AddI18nSearchMethod(ctx: Context, name: string): (r: Context)
    ensures |r.setterNames| == |ctx.setterNames| + 1 && r.setterNames[|ctx.setterNames|] == name
    ensures r.setterNames[..|ctx.setterNames|] == ctx.setterNames
    ensures r.(setterNames := ctx.setterNames) == ctx
    ensures Wellformed(ctx) ==> Wellformed(r)
  {
    ctx.(setterNames := ctx.setterNames + [name])
  }

  /** Adding a setter name never changes the text setter of an object that already has one. */
  lemma AddedNameKeepsSetters(ctx: Context, name: string, obj: Obj)
    requires SearchI18NCompatibleMethod(obj, ctx.setterNames).Some?
    ensures SearchI18NCompatibleMethod(obj, AddI18nSearchMethod(ctx, name).setterNames)
            == SearchI18NCompatibleMethod(obj, ctx.setterNames)
  {
    LaterNamesIgnored(obj, ctx.setterNames, [name]);
  }

  /** `addLanguageFileSearchPath(path)`: `path` is searched after every path registered before it. */
  function AddLanguageFileSearchPath(ctx: Context, path: string): (r: Context)
    ensures |r.searchPaths| == |ctx.searchPaths| + 1 && r.searchPaths[|ctx.searchPaths|] == path
    ensures r.searchPaths[..|ctx.searchPaths|] == ctx.searchPaths
    ensures r.(searchPaths := ctx.searchPaths) == ctx
    ensures Wellformed(ctx) ==> Wellformed(r)
  {
    ctx.(searchPaths := ctx.searchPaths + [path])
  }

  /** Adding a search path never changes a locale that an earlier path already provides. */
  lemma AddedPathKeepsLocale(ctx: Context, path: string, language: string, cp: LocaleStore.Classpath, i: nat)
    requires i < |ctx.searchPaths| && LocaleStore.Attempt(cp, ctx.searchPaths[i], language).Some?
    ensures LocaleStore.Load(language, AddLanguageFileSearchPath(ctx, path).searchPaths, cp)
            == LocaleStore.Load(language, ctx.searchPaths, cp)
  {
    LocaleStore.LaterPathsIgnored(language, ctx.searchPaths, [path], cp, i);
  }

  /** `setDefaultLanguage(language)`: only the language `loadDefault` uses changes. */
  function SetDefaultLanguage(ctx: Context, language: string): (r: Context)
    ensures r.language == language
    ensures r.(language := ctx.language) == ctx
    ensures Wellformed(ctx) ==> Wellformed(r)
  {
    ctx.(language := language)
  }

  // ---------------------------------------------------------------- locale changes

  /**
   * `updateTreeUI()`: render every open frame's registry with `locale`.
   * The map's iteration order is unspecified, so the calls are given per
   * frame id.
   */
  function UpdateTreeUI(containers: map<string, Container>, setterNames: seq<string>, locale: LocaleStore.Locale)
    : (renders: map<string, seq<Effect>>)
    ensures renders.Keys == containers.Keys
    ensures forall id :: id in containers ==> renders[id] == Render(containers[id], setterNames, locale)
    ensures forall id :: id in renders ==> |renders[id]| <= |containers[id].components|
    ensures forall id :: id in renders && containers[id].Valid() ==>
      forall e :: e in renders[id] ==>
        && e.TextSetterCall? && LinkedMap.HasKey(containers[id].components, e.target)
        && e.text == LocaleStore.Text(locale, LinkedMap.Get(containers[id].components, e.target).value)
  {
    map id | id in containers :: Render(containers[id], setterNames, locale)
  }

  /** The result of a locale change: the state after and the render calls per frame id. */
  datatype LocaleChange = LocaleChange(context: Context, renders: map<string, seq<Effect>>)

  /**
   * `changeLocale(language, force)`: load `language` from the search paths;
   * install it and re-render every open frame when it loaded or `force`
   * is set, otherwise change nothing.
   */
  function SetLocale(ctx: Context, language: string, force: bool, cp: LocaleStore.Classpath): (r: LocaleChange)
    ensures var l := LocaleStore.Load(language, ctx.searchPaths, cp);
      && r.context.locale == (if force || l.IsLoaded() then Some(l) else ctx.locale)
      && r.renders.Keys == (if force || l.IsLoaded() then ctx.containers.Keys else {})
      && r.renders == (if force || l.IsLoaded() then UpdateTreeUI(ctx.containers, ctx.setterNames, l) else map[])
    ensures r.context.(locale := ctx.locale) == ctx
    ensures r.renders != map[] ==> r.context.locale.Some?
    ensures forall id :: id in r.renders && ctx.containers[id].Valid() ==>
      forall e :: e in r.renders[id] ==>
        && e.TextSetterCall? && LinkedMap.HasKey(ctx.containers[id].components, e.target)
        && e.text == LocaleStore.Text(r.context.locale.value, LinkedMap.Get(ctx.containers[id].components, e.target).value)
    ensures Wellformed(ctx) ==> Wellformed(r.context)
  {
    var l := LocaleStore.Load(language, ctx.searchPaths, cp);
    if force || l.IsLoaded() then
      LocaleChange(ctx.(locale := Some(l)), UpdateTreeUI(ctx.containers, ctx.setterNames, l))
    else
      LocaleChange(ctx, map[])
  }

  /** `changeLocale(language)`: switch only to a language that loads. */
  function ChangeLocale(ctx: Context, language: string, cp: LocaleStore.Classpath): (r: LocaleChange)
    ensures r.context.(locale := ctx.locale) == ctx
    ensures r.context.locale != ctx.locale ==> r.context.locale.Some? && r.context.locale.value.IsLoaded()
    ensures var l := LocaleStore.Load(language, ctx.searchPaths, cp);
      && (l.IsLoaded() ==> r.context.locale == Some(l) && r.renders == UpdateTreeUI(ctx.containers, ctx.setterNames, l))
      && (!l.IsLoaded() ==> r == LocaleChange(ctx, map[]))
    ensures Wellformed(ctx) ==> Wellformed(r.context)
  {
    SetLocale(ctx, language, false, cp)
  }

  /** `loadDefault()`: install the default language, even when no file provides it. */
  function LoadDefault(ctx: Context, cp: LocaleStore.Classpath): (r: LocaleChange)
    ensures r.context.locale == Some(LocaleStore.Load(ctx.language, ctx.searchPaths, cp))
    ensures r.context.(locale := ctx.locale) == ctx
    ensures r.renders.Keys == ctx.containers.Keys
    ensures r.renders == UpdateTreeUI(ctx.containers, ctx.setterNames, r.context.locale.value)
    ensures Wellformed(ctx) ==> Wellformed(r.context)
  {
    SetLocale(ctx, ctx.language, true, cp)
  }

  /** A language that no search path provides leaves the state as it was and renders nothing. */
  lemma ChangeToMissingLanguage(ctx: Context, language: string, cp: LocaleStore.Classpath)
    requires forall i :: 0 <= i < |ctx.searchPaths| ==> LocaleStore.Attempt(cp, ctx.searchPaths[i], language).None?
    ensures ChangeLocale(ctx, language, cp) == LocaleChange(ctx, map[])
  {
  }

  /** Forcing a language that no search path provides installs an unloaded locale, whose every text is null. */
  lemma ForceMissingLanguage(ctx: Context, language: string, cp: LocaleStore.Classpath, key: string)
    requires forall i :: 0 <= i < |ctx.searchPaths| ==> LocaleStore.Attempt(cp, ctx.searchPaths[i], language).None?
    ensures var r := SetLocale(ctx, language, true, cp);
      r.context.locale.Some? && LocaleStore.Text(r.context.locale.value, key).None?
  {
  }

  /** Changing to the same language twice leaves the state of the first change and repeats its calls. */
  lemma ChangeLocaleIdempotent(ctx: Context, language: string, force: bool, cp: LocaleStore.Classpath)
    ensures var once := SetLocale(ctx, language, force, cp);
      SetLocale(once.context, language, force, cp) == once
  {
  }

  // ---------------------------------------------------------------- frames

  /** The result of `destroyFrame`: the state after and the cleared registry. */
  datatype Destroyed = Destroyed(context: Context, released: Container)

  /**
   * `destroyFrame(id)`: clear the frame's registry and forget it; an id
   * with no open frame throws a `NullPointerException`.
   */
  function DestroyFrame(ctx: Context, id: string): (r: Try<Destroyed>)
    ensures r.Threw? <==> id !in ctx.containers
    ensures r.Returned? ==>
      && id !in r.value.context.containers
      && (forall other :: other != id ==> (other in r.value.context.containers <==> other in ctx.containers))
      && (forall other :: other != id && other in ctx.containers ==> r.value.context.containers[other] == ctx.containers[other])
      && r.value.context.(containers := ctx.containers) == ctx
    ensures r.Returned? ==>
      && r.value.released.self == ctx.containers[id].self
      && r.value.released.frame.None? && r.value.released.components == []
    ensures r.Returned? && Wellformed(ctx) ==> Wellformed(r.value.context)
  {
    if id !in ctx.containers then Threw
    else Returned(Destroyed(ctx.(containers := ctx.containers - {id}), Clear(ctx.containers[id])))
  }

  /** `clazz.isAnnotationPresent(Frame.class)`: the class itself carries `@Frame`. */
  predicate IsFrameClass(cls: ClassDecl) {
    cls.Declared? && IsAnnotationPresent(cls.annotations, FrameMarker)
  }

  const JFrameName: TypeName := "javax.swing.JFrame"

  /** `object instanceof JFrame` for an instance of `cls`: the cast to `JFrame` before showing succeeds. */
  predicate IsJFrame(cls: ClassDecl) {
    IsAssignableFrom(JFrameName, cls)
  }

  /** A class with `JFrame` among its superclasses is a `JFrame`. */
  lemma ExtendsJFrame(cls: ClassDecl, d: nat)
    requires d < Height(cls) && NameOf(Ancestor(cls, d)) == JFrameName
    ensures IsJFrame(cls)
  {
    AssignableToAncestors(cls, d);
  }

  /** An `@Initializer` method whose arity matches the arguments. */
  predicate InitializerFor(m: MethodDecl, args: seq<Option<Obj>>) {
    IsAnnotationPresent(m.annotations, InitializerMarker) && |m.params| == |args|
  }

  /** An initializer that `newFrame` invokes with `args`: right arity, and every parameter accepts its argument. */
  predicate TakesArguments(m: MethodDecl, args: seq<Option<Obj>>) {
    InitializerFor(m, args) && Accepts(m.params, args)
  }

  /** Some argument is `null`. */
  predicate HasNullArgument(args: seq<Option<Obj>>) {
    exists i :: 0 <= i < |args| && args[i].None?
  }

  /**
   * One step of the initializer loop returns normally: the method is not an
   * initializer of this arity, or no argument checked is null and, when
   * every parameter accepts its argument, the invocation returns normally.
   */
  predicate InitializerStepOk(target: Obj, m: MethodDecl, args: seq<Option<Obj>>, w: World) {
    InitializerFor(m, args) ==>
      && ArgumentsAccepted(m.params, args, 0).Returned?
      && (TakesArguments(m, args) ==> w.callInitializer(target, m, args))
  }

  /** The parameter check throws only when some argument is null. */
  lemma CheckThrowsOnNull(params: seq<TypeName>, args: seq<Option<Obj>>)
    requires |params| == |args|
    ensures ArgumentsAccepted(params, args, 0).Threw? ==> HasNullArgument(args)
  {
    if ArgumentsAccepted(params, args, 0).Threw? {
      var j :| 0 <= j < |args| && args[j].None? && AcceptedBetween(params, args, 0, j);
    }
  }

  /** The result of running initializers: whether every step returned normally, and the calls made. */
  datatype Initialization = Initialization(completed: bool, log: seq<Effect>)

  /**
   * The initializer loop of `newFrame`: in declaration order, invoke each
   * `@Initializer` method whose arity matches and whose parameter types
   * accept the arguments. A null argument reached by the check, or an
   * invocation that throws, ends the loop.
   */
  function RunInitializers(target: Obj, methods: seq<MethodDecl>, args: seq<Option<Obj>>, w: World): (r: Initialization)
    ensures forall e :: e in r.log ==>
      e.InitializerCall? && e.target == target && e.args == args && e.init in methods && TakesArguments(e.init, args)
    ensures r.completed ==> forall e :: e in r.log ==> w.callInitializer(target, e.init, args)
    ensures !r.completed ==>
      HasNullArgument(args) || (|r.log| > 0 && !w.callInitializer(target, r.log[|r.log| - 1].init, args))
    decreases |methods|
  {
    if |methods| == 0 then Initialization(true, [])
    else
      var m := methods[0];
      assert forall x :: x in methods[1..] ==> x in methods;
      if !InitializerFor(m, args) then RunInitializers(target, methods[1..], args, w)
      else
        match ArgumentsAccepted(m.params, args, 0)
        case Threw =>
          CheckThrowsOnNull(m.params, args);
          Initialization(false, [])
        case Returned(false) => RunInitializers(target, methods[1..], args, w)
        case Returned(true) =>
          var call := InitializerCall(target, m, args);
          if !w.callInitializer(target, m, args) then Initialization(false, [call])
          else
            var rest := RunInitializers(target, methods[1..], args, w);
            Initialization(rest.completed, [call] + rest.log)
  }

  /** The initializers that take `args`, in declaration order. */
  function Applicable(methods: seq<MethodDecl>, args: seq<Option<Obj>>): (r: seq<MethodDecl>)
    ensures forall m :: m in r <==> m in methods && TakesArguments(m, args)
  {
    if |methods| == 0 then []
    else
      var m := methods[0];
      (if TakesArguments(m, args) then [m] else []) + Applicable(methods[1..], args)
  }

  /** One `InitializerCall` on `target` with `args` per method of `ms`, in order. */
  function InitializerCalls(target: Obj, ms: seq<MethodDecl>, args: seq<Option<Obj>>): (r: seq<Effect>)
    ensures |r| == |ms|
    ensures forall i :: 0 <= i < |ms| ==> r[i] == InitializerCall(target, ms[i], args)
    decreases |ms|
  {
    if |ms| == 0 then [] else [InitializerCall(target, ms[0], args)] + InitializerCalls(target, ms[1..], args)
  }

  /** The initializer loop completes exactly when every one of its steps returns normally. */
  lemma {:induction false} InitializersComplete(target: Obj, methods: seq<MethodDecl>, args: seq<Option<Obj>>, w: World)
    ensures RunInitializers(target, methods, args, w).completed <==>
            forall m :: m in methods ==> InitializerStepOk(target, m, args, w)
    decreases |methods|
  {
    if |methods| > 0 {
      var tail := methods[1..];
      assert forall x :: x in tail ==> x in methods;
      assert forall x :: x in methods ==> x == methods[0] || x in tail;
      InitializersComplete(target, tail, args, w);
      var m := methods[0];
      if !InitializerStepOk(target, m, args, w) {
        assert !RunInitializers(target, methods, args, w).completed;
      } else {
        assert RunInitializers(target, methods, args, w).completed == RunInitializers(target, tail, args, w).completed;
      }
    }
  }

  /**
   * The initializer loop invokes a prefix of the applicable initializers,
   * in order: the ones before the first step that throws.
   */
  lemma {:induction false} InitializersInOrder(target: Obj, methods: seq<MethodDecl>, args: seq<Option<Obj>>, w: World)
    ensures var r := RunInitializers(target, methods, args, w);
      |r.log| <= |Applicable(methods, args)| && r.log == InitializerCalls(target, Applicable(methods, args)[..|r.log|], args)
    decreases |methods|
  {
    if |methods| > 0 {
      InitializersInOrder(target, methods[1..], args, w);
      if TakesArguments(methods[0], args) {
        FirstInitializerTaken(target, methods, args, w);
      } else {
        FirstInitializerSkipped(target, methods, args, w);
      }
    }
  }

  /** `InitializersInOrder` one step on, when the first method takes the arguments: its call comes first. */
  lemma FirstInitializerTaken(target: Obj, methods: seq<MethodDecl>, args: seq<Option<Obj>>, w: World)
    requires |methods| > 0 && TakesArguments(methods[0], args)
    requires var rest := RunInitializers(target, methods[1..], args, w);
      |rest.log| <= |Applicable(methods[1..], args)|
      && rest.log == InitializerCalls(target, Applicable(methods[1..], args)[..|rest.log|], args)
    ensures var r := RunInitializers(target, methods, args, w);
      |r.log| <= |Applicable(methods, args)| && r.log == InitializerCalls(target, Applicable(methods, args)[..|r.log|], args)
  {
    var m := methods[0];
    var tail := methods[1..];
    var rest := RunInitializers(target, tail, args, w);
    assert ArgumentsAccepted(m.params, args, 0) == Returned(true);
    assert Applicable(methods, args) == [m] + Applicable(tail, args);
    if w.callInitializer(target, m, args) {
      CallsCons(target, m, Applicable(tail, args), args, |rest.log|);
    } else {
      CallsCons(target, m, Applicable(tail, args), args, 0);
    }
  }

  /** `InitializersInOrder` one step on, when the first method does not take the arguments. */
  lemma FirstInitializerSkipped(target: Obj, methods: seq<MethodDecl>, args: seq<Option<Obj>>, w: World)
    requires |methods| > 0 && !TakesArguments(methods[0], args)
    requires var rest := RunInitializers(target, methods[1..], args, w);
      |rest.log| <= |Applicable(methods[1..], args)|
      && rest.log == InitializerCalls(target, Applicable(methods[1..], args)[..|rest.log|], args)
    ensures var r := RunInitializers(target, methods, args, w);
      |r.log| <= |Applicable(methods, args)| && r.log == InitializerCalls(target, Applicable(methods, args)[..|r.log|], args)
  {
    assert Applicable(methods, args) == Applicable(methods[1..], args);
    var m := methods[0];
    if InitializerFor(m, args) && ArgumentsAccepted(m.params, args, 0).Threw? {
      assert RunInitializers(target, methods, args, w).log == [];
    } else {
      assert RunInitializers(target, methods, args, w) == RunInitializers(target, methods[1..], args, w);
    }
  }

  /** Every initializer call of `log` except the last returned normally. */
  predicate ReturnedBeforeLast(target: Obj, log: seq<Effect>, args: seq<Option<Obj>>, w: World) {
    forall k :: 0 <= k < |log| - 1 ==> log[k].InitializerCall? && w.callInitializer(target, log[k].init, args)
  }

  /**
   * The loop stops at the first invocation that throws: every call before
   * the last one returned normally, and a run that completes made one call
   * per applicable initializer.
   */
  lemma InitializersStopAtFailure(target: Obj, methods: seq<MethodDecl>, args: seq<Option<Obj>>, w: World)
    ensures var r := RunInitializers(target, methods, args, w);
      forall k :: 0 <= k < |r.log| - 1 ==> w.callInitializer(target, r.log[k].init, args)
    ensures var r := RunInitializers(target, methods, args, w);
      r.completed ==> |r.log| == |Applicable(methods, args)|
  {
    StopsAtFailure(target, methods, args, w);
    CompletedRunCallsAll(target, methods, args, w);
  }

  lemma {:induction false} StopsAtFailure(target: Obj, methods: seq<MethodDecl>, args: seq<Option<Obj>>, w: World)
    ensures ReturnedBeforeLast(target, RunInitializers(target, methods, args, w).log, args, w)
    decreases |methods|
  {
    if |methods| > 0 {
      var m := methods[0];
      var tail := methods[1..];
      StopsAtFailure(target, tail, args, w);
      var rest := RunInitializers(target, tail, args, w);
      var r := RunInitializers(target, methods, args, w);
      if !InitializerFor(m, args) {
        assert r == rest;
      } else if ArgumentsAccepted(m.params, args, 0).Threw? {
        assert r.log == [];
      } else if ArgumentsAccepted(m.params, args, 0) == Returned(false) {
        assert r == rest;
      } else if !w.callInitializer(target, m, args) {
        assert |r.log| == 1;
      } else {
        StepReturned(target, m, rest.log, args, w);
      }
    }
  }

  /** Prepending a call that returned normally keeps `ReturnedBeforeLast`. */
  lemma StepReturned(target: Obj, m: MethodDecl, log: seq<Effect>, args: seq<Option<Obj>>, w: World)
    requires w.callInitializer(target, m, args)
    requires ReturnedBeforeLast(target, log, args, w)
    ensures ReturnedBeforeLast(target, [InitializerCall(target, m, args)] + log, args, w)
  {
    var l := [InitializerCall(target, m, args)] + log;
    forall k | 0 <= k < |l| - 1
      ensures l[k].InitializerCall? && w.callInitializer(target, l[k].init, args)
    {
      if k > 0 {
        assert l[k] == log[k - 1];
      }
    }
  }

  /** A run of the initializer loop that completes made one call per applicable initializer. */
  lemma {:induction false} CompletedRunCallsAll(target: Obj, methods: seq<MethodDecl>, args: seq<Option<Obj>>, w: World)
    ensures var r := RunInitializers(target, methods, args, w);
      r.completed ==> |r.log| == |Applicable(methods, args)|
    decreases |methods|
  {
    if |methods| > 0 {
      var m := methods[0];
      var tail := methods[1..];
      CompletedRunCallsAll(target, tail, args, w);
      if TakesArguments(m, args) {
        assert |Applicable(methods, args)| == 1 + |Applicable(tail, args)|;
      } else {
        assert Applicable(methods, args) == Applicable(tail, args);
      }
    }
  }

  /** The calls for the first `k + 1` of `[m] + ms` are the call of `m` followed by those for the first `k` of `ms`. */
  lemma CallsCons(target: Obj, m: MethodDecl, ms: seq<MethodDecl>, args: seq<Option<Obj>>, k: nat)
    requires k <= |ms|
    ensures InitializerCalls(target, ([m] + ms)[..k + 1], args)
            == [InitializerCall(target, m, args)] + InitializerCalls(target, ms[..k], args)
  {
    assert ([m] + ms)[..k + 1] == [m] + ms[..k];
    assert ([m] + ms[..k])[1..] == ms[..k];
  }

  /**
   * With no null argument and no initializer that throws, every applicable
   * initializer is invoked exactly once, in declaration order.
   */
  lemma {:induction false} AllInitializersRun(target: Obj, methods: seq<MethodDecl>, args: seq<Option<Obj>>, w: World)
    requires !HasNullArgument(args)
    requires forall m :: m in Applicable(methods, args) ==> w.callInitializer(target, m, args)
    ensures RunInitializers(target, methods, args, w) == Initialization(true, InitializerCalls(target, Applicable(methods, args), args))
    decreases |methods|
  {
    if |methods| > 0 {
      var m := methods[0];
      var tail := methods[1..];
      assert forall x :: x in tail ==> x in methods;
      AllInitializersRun(target, tail, args, w);
      var restCalls := Applicable(tail, args);
      if InitializerFor(m, args) {
        NonNullArgumentsChecked(m.params, args);
      }
      if TakesArguments(m, args) {
        assert Applicable(methods, args) == [m] + restCalls;
        assert ([m] + restCalls)[1..] == restCalls;
      } else {
        assert Applicable(methods, args) == restCalls;
      }
    }
  }

  /**
   * The registry auto-wiring leaves for `frame`, when instances built for
   * its null `@I18N` fields get identities from `next` on: it holds exactly
   * the values injected into those fields; each is registered under the key
   * of the last field that gives it; objects are registered in the order
   * of the fields that first give them; and when the fields held only objects
   * allocated before `next`, each new instance is registered under its own
   * field's key and every registered object was allocated before the
   * identities the pass did not hand out.
   */
  ghost predicate WiredRegistry(c: Container, frame: Obj, next: nat, w: World) {
    var fields := SearchFieldByAnnotation(frame, I18NMarker);
    && RegistersFieldValues(c.components, frame, fields, next, w)
    && KeyedByFields(c.components, frame, fields, next, w)
    && FirstSeenOrder(c.components, [], frame, fields, next, w)
    && (HeldBelow(frame, fields, next, w) ==>
          && ConstructedKeyed(c.components, frame, fields, next, w)
          && c.AllocatedBelow(next + |fields|))
  }

  /**
   * The auto-wiring step of `newFrame`: a new registry for `frame`, with
   * identity `newId + 1`, wired with field instances from `newId + 2` on.
   */
  function FrameRegistry(ctx: Context, frame: Obj, newId: nat, w: World): (r: Wiring)
    ensures r.container.self == Obj(newId + 1, ContainerClass) && r.container.frame == Some(frame)
    ensures r.container.Valid()
    ensures WiredRegistry(r.container, frame, newId + 2, w)
    ensures r.rendered <==> ctx.locale.Some? || !NeedsLocale(r.container, ctx.setterNames)
    ensures NoInitializerCall(r.log)
  {
    AutoWired(NewContainer(Obj(newId + 1, ContainerClass), frame), ctx.setterNames, ctx.locale, newId + 2, w)
  }

  /** The result of `newFrame`: the state after, the frame built (if any), the calls made, and whether the frame was shown. */
  datatype FrameOpening = FrameOpening(context: Context, frame: Option<Obj>, log: seq<Effect>, shown: bool)

  /**
   * `newFrame(cls, id, args)`: for an `@Frame` class with a public
   * no-argument constructor, build the frame (identity `newId`), register a
   * new registry (identity `newId + 1`) under `id`, replacing any frame
   * open under that id, auto-wire it (new field instances get identities
   * from `newId + 2` on), run the initializers that take `args`, and show
   * the frame. A frame class that is not a `JFrame` only gets a message at
   * first, and then fails the cast before showing. Every failure after the
   * registry is registered is caught and leaves it registered; the steps
   * after the failure do not run. The calls are the construction, the
   * wiring's, then the initializer loop's, and only the loop calls an
   * initializer. The registry is the one auto-wiring leaves: what an
   * initializer's body registers is not modelled.
   */
  function NewFrame(ctx: Context, cls: ClassDecl, id: string, args: seq<Option<Obj>>, newId: nat, w: World): (r: FrameOpening)
    ensures r.frame.None? <==>
      !IsFrameClass(cls) || NoArgConstructor(cls).None? || !w.instantiate(cls, [])
    ensures r.frame.None? ==> r.context == ctx && !r.shown
    ensures !IsFrameClass(cls) ==> r.log == []
    ensures r.frame.Some? ==>
      && r.frame.value == Obj(newId, cls)
      && id in r.context.containers
      && r.context == ctx.(containers := ctx.containers[id := r.context.containers[id]])
      && r.context.containers[id].self == Obj(newId + 1, ContainerClass)
      && r.context.containers[id].frame == r.frame
    ensures r.frame.Some? ==> WiredRegistry(r.context.containers[id], r.frame.value, newId + 2, w)
    ensures r.shown ==> r.frame.Some?
    ensures r.frame.Some? ==>
      (r.shown <==> && (ctx.locale.Some? || !NeedsLocale(r.context.containers[id], ctx.setterNames))
                    && RunInitializers(r.frame.value, cls.methods, args, w).completed
                    && IsJFrame(cls))
    ensures Wellformed(ctx) ==> Wellformed(r.context)
    ensures r.frame.Some? ==> |r.log| > 0 && r.log[0] == Construct(cls, [])
    ensures r.frame.Some? ==>
      var initLog := if ctx.locale.Some? || !NeedsLocale(r.context.containers[id], ctx.setterNames)
                     then RunInitializers(r.frame.value, cls.methods, args, w).log else [];
      && |initLog| < |r.log|
      && r.log[|r.log| - |initLog|..] == initLog
      && NoInitializerCall(r.log[..|r.log| - |initLog|])
  {
    if !IsFrameClass(cls) then FrameOpening(ctx, None, [], false)
    else
      match NoArgConstructor(cls)
      case None => FrameOpening(ctx, None, [], false)
      case Some(_) =>
        if !w.instantiate(cls, []) then FrameOpening(ctx, None, [Construct(cls, [])], false)
        else
          var frame := Obj(newId, cls);
          FrameWired(ctx, cls, id, args, frame, FrameRegistry(ctx, frame, newId, w), w)
  }

  /**
   * The steps of `newFrame` once `frame` is built and auto-wired: register
   * the registry under `id`; if the render pass completed, run the
   * initializers and show a `JFrame`. The calls are the construction, the
   * wiring's, then the initializer loop's.
   */
  function FrameWired(ctx: Context, cls: ClassDecl, id: string, args: seq<Option<Obj>>,
                      frame: Obj, wiring: Wiring, w: World): (r: FrameOpening)
    requires IsFrameClass(cls)
    ensures r.frame == Some(frame)
    ensures r.context == ctx.(containers := ctx.containers[id := wiring.container])
    ensures r.shown <==> wiring.rendered && RunInitializers(frame, cls.methods, args, w).completed && IsJFrame(cls)
    ensures |r.log| > 0 && r.log[0] == Construct(cls, [])
    ensures var initLog := if wiring.rendered then RunInitializers(frame, cls.methods, args, w).log else [];
      && |initLog| < |r.log|
      && r.log[|r.log| - |initLog|..] == initLog
      && (NoInitializerCall(wiring.log) ==> NoInitializerCall(r.log[..|r.log| - |initLog|]))
  {
    var next := ctx.(containers := ctx.containers[id := wiring.container]);
    var log := [Construct(cls, [])] + wiring.log;
    NoInitializerCallConcat([Construct(cls, [])], wiring.log);
    if !wiring.rendered then
      assert log[..|log|] == log;
      FrameOpening(next, Some(frame), log, false)
    else
      var init := RunInitializers(frame, cls.methods, args, w);
      assert (log + init.log)[..|log|] == log && (log + init.log)[|log|..] == init.log;
      FrameOpening(next, Some(frame), log + init.log, init.completed && IsJFrame(cls))
  }

  /**
   * A `JFrame` frame class, built while a locale is active, with non-null
   * arguments and no initializer that throws, is shown.
   */
  lemma FrameShown(ctx: Context, cls: ClassDecl, id: string, args: seq<Option<Obj>>, newId: nat, w: World)
    requires IsFrameClass(cls) && NoArgConstructor(cls).Some? && w.instantiate(cls, [])
    requires IsJFrame(cls) && ctx.locale.Some? && !HasNullArgument(args)
    requires forall m :: m in Applicable(cls.methods, args) ==> w.callInitializer(Obj(newId, cls), m, args)
    ensures NewFrame(ctx, cls, id, args, newId, w).shown
  {
    AllInitializersRun(Obj(newId, cls), cls.methods, args, w);
  }

  /** Registering a frame under a fresh id and then destroying it gives back the state from before. */
  lemma RegisterThenDestroy(ctx: Context, id: string, c: Container)
    requires id !in ctx.containers
    ensures DestroyFrame(ctx.(containers := ctx.containers[id := c]), id) == Returned(Destroyed(ctx, Clear(c)))
  {
    assert ctx.containers[id := c] - {id} == ctx.containers;
  }

  /** Opening a frame under a fresh id and then destroying it gives back the open frames from before. */
  lemma OpenThenDestroy(ctx: Context, cls: ClassDecl, id: string, args: seq<Option<Obj>>, newId: nat, w: World)
    requires id !in ctx.containers
    requires IsFrameClass(cls) && NoArgConstructor(cls).Some? && w.instantiate(cls, [])
    ensures var afterOpen := NewFrame(ctx, cls, id, args, newId, w).context;
      DestroyFrame(afterOpen, id).Returned? && DestroyFrame(afterOpen, id).value.context == ctx
  {
    var afterOpen := NewFrame(ctx, cls, id, args, newId, w).context;
    RegisterThenDestroy(ctx, id, afterOpen.containers[id]);
  }
}

=== FILE: linked_map.dfy ===
/**
 * An insertion-ordered association list with unique keys, the behaviour of
 * `java.util.LinkedHashMap` with keys compared by `equals`: re-putting a key
 * replaces its value in place, a new key goes to the end, and removing a key
 * keeps the others in their relative order.
 */
module LinkedMap {
  import opened Common

  /** No key occurs twice. */
  predicate Unique<K(==, !new), V>(m: seq<(K, V)>) {
    forall i, j :: 0 <= i < j < |m| ==> m[i].0 != m[j].0
  }

  /** `k` is the key of some entry. */
  predicate HasKey<K(==, !new), V>(m: seq<(K, V)>, k: K) {
    exists i :: 0 <= i < |m| && m[i].0 == k
  }

  /** The position of the first entry with key `k`. */
  function IndexOf<K(==, !new), V>(m: seq<(K, V)>, k: K): (i: nat)
    requires HasKey(m, k)
    ensures i < |m| && m[i].0 == k
    ensures forall j :: 0 <= j < i ==> m[j].0 != k
  {
    if m[0].0 == k then 0
    else
      assert forall j :: 0 <= j < |m| - 1 ==> m[1..][j] == m[j + 1];
      assert exists j :: 0 <= j < |m| - 1 && m[1..][j].0 == k by {
        var j :| 0 <= j < |m| && m[j].0 == k;
        assert m[1..][j - 1].0 == k;
      }
      1 + IndexOf(m[1..], k)
  }

  /** The value stored under `k` (the first entry with that key), or null. */
  function Get<K(==, !new), V>(m: seq<(K, V)>, k: K): (r: Option<V>)
    ensures r.None? <==> !HasKey(m, k)
    ensures r.Some? ==> exists i :: 0 <= i < |m| && m[i] == (k, r.value)
  {
    if HasKey(m, k) then Some(m[IndexOf(m, k)].1) else None
  }

  /** `map.put(k, v)`. */
  function Put<K(==, !new), V>(m: seq<(K, V)>, k: K, v: V): (r: seq<(K, V)>)
    ensures Get(r, k) == Some(v)
    ensures forall k' :: k' != k ==> Get(r, k') == Get(m, k')
    ensures Unique(m) ==> Unique(r)
    ensures HasKey(m, k) ==> |r| == |m|
    ensures !HasKey(m, k) ==> r == m + [(k, v)]
    ensures forall i :: 0 <= i < |m| ==> r[i].0 == m[i].0
  {
    if HasKey(m, k) then
      var i := IndexOf(m, k);
      var r := m[i := (k, v)];
      assert forall j :: 0 <= j < |m| ==> r[j].0 == m[j].0;
      assert IndexOf(r, k) == i;
      assert forall k' :: k' != k ==> Get(r, k') == Get(m, k') by {
        forall k' | k' != k
          ensures Get(r, k') == Get(m, k')
        {
          if HasKey(m, k') {
            var j :| 0 <= j < |m| && m[j].0 == k';
            assert r[j].0 == k';
            assert IndexOf(r, k') == IndexOf(m, k');
          }
        }
      }
      r
    else
      var r := m + [(k, v)];
      assert forall j :: 0 <= j < |m| ==> r[j] == m[j];
      assert r[|m|].0 == k;
      assert IndexOf(r, k) == |m|;
      assert forall k' :: k' != k ==> Get(r, k') == Get(m, k') by {
        forall k' | k' != k
          ensures Get(r, k') == Get(m, k')
        {
          if HasKey(m, k') {
            var j :| 0 <= j < |m| && m[j].0 == k';
            assert r[j].0 == k';
            var a, b := IndexOf(r, k'), IndexOf(m, k');
            assert a <= j && b <= j;
            assert r[a] == m[a] && r[b] == m[b];
          }
        }
      }
      r
  }

  /** `put` the entry `e` if it is present; leave the map alone otherwise. */
  function PutEntry<K(==, !new), V>(m: seq<(K, V)>, e: Option<(K, V)>): (r: seq<(K, V)>)
    ensures |m| <= |r|
    ensures forall i :: 0 <= i < |m| ==> r[i].0 == m[i].0
    ensures e.Some? ==> HasKey(r, e.value.0)
    ensures forall k :: (e.None? || e.value.0 != k) ==> Get(r, k) == Get(m, k)
  {
    if e.Some? then Put(m, e.value.0, e.value.1) else m
  }

  /** `put` each present entry of `es` in turn; absent entries are skipped. */
  function PutEach<K(==, !new), V>(m: seq<(K, V)>, es: seq<Option<(K, V)>>): (r: seq<(K, V)>)
    ensures |m| <= |r|
    ensures forall i :: 0 <= i < |m| ==> r[i].0 == m[i].0
    decreases |es|
  {
    if |es| == 0 then m
    else PutEach(PutEntry(m, es[0]), es[1..])
  }

  /** After `PutEach`, the key of every present entry is in the map. */
  lemma {:induction false} PutEachHasKey<K(!new), V>(m: seq<(K, V)>, es: seq<Option<(K, V)>>, i: nat)
    requires i < |es| && es[i].Some?
    ensures HasKey(PutEach(m, es), es[i].value.0)
    decreases |es|
  {
    var m1 := PutEntry(m, es[0]);
    if i == 0 {
      IndexKept(m1, PutEach(m1, es[1..]), es[0].value.0);
    } else {
      assert es[1..][i - 1] == es[i];
      PutEachHasKey(m1, es[1..], i - 1);
    }
  }

  /**
   * `PutEach` adds new keys in entry order: the key of entry `i` comes before
   * that of a later entry `j`, when neither `m` nor any entry before `j` has
   * `j`'s key.
   */
  lemma {:induction false} PutEachOrder<K(!new), V>(m: seq<(K, V)>, es: seq<Option<(K, V)>>, i: nat, j: nat)
    requires i < j < |es| && es[i].Some? && es[j].Some?
    requires forall k :: 0 <= k < j && es[k].Some? ==> es[k].value.0 != es[j].value.0
    requires !HasKey(m, es[j].value.0)
    ensures HasKey(PutEach(m, es), es[i].value.0) && HasKey(PutEach(m, es), es[j].value.0)
    ensures IndexOf(PutEach(m, es), es[i].value.0) < IndexOf(PutEach(m, es), es[j].value.0)
    decreases |es|
  {
    var b := es[j].value.0;
    var m1 := PutEntry(m, es[0]);
    var rest := es[1..];
    assert rest[j - 1] == es[j];
    assert Get(m1, b) == Get(m, b);
    if i == 0 {
      PutEachHasKey(m1, rest, j - 1);
      KeptBeforeAdded(m1, PutEach(m1, rest), es[0].value.0, b);
    } else {
      assert rest[i - 1] == es[i];
      PutEachEarlierKeys(es, j);
      PutEachOrder(m1, rest, i - 1, j - 1);
    }
  }

  /** The condition of `PutEachOrder` on earlier entries carries over to the entries after the first. */
  lemma PutEachEarlierKeys<K(!new), V>(es: seq<Option<(K, V)>>, j: nat)
    requires 0 < j < |es| && es[j].Some?
    requires forall k :: 0 <= k < j && es[k].Some? ==> es[k].value.0 != es[j].value.0
    ensures forall k :: 0 <= k < j - 1 && es[1..][k].Some? ==> es[1..][k].value.0 != es[1..][j - 1].value.0
  {
    forall k | 0 <= k < j - 1 && es[1..][k].Some?
      ensures es[1..][k].value.0 != es[1..][j - 1].value.0
    {
      assert es[1..][k] == es[k + 1];
    }
  }

  /** `map.remove(k)`: every entry with key `k` goes, the rest keep their order. */
  function Remove<K(==, !new), V>(m: seq<(K, V)>, k: K): (r: seq<(K, V)>)
    ensures !HasKey(r, k)
    ensures forall k' :: k' != k ==> Get(r, k') == Get(m, k')
    ensures Unique(m) ==> Unique(r)
    ensures !HasKey(m, k) ==> r == m
    ensures |r| <= |m|
  {
    if |m| == 0 then []
    else
      assert forall i :: 0 <= i < |m| - 1 ==> m[1..][i] == m[i + 1];
      assert m == [m[0]] + m[1..];
      var rest := Remove(m[1..], k);
      assert forall k' :: Get(m, k') == if m[0].0 == k' then Some(m[0].1) else Get(m[1..], k') by {
        forall k' ensures Get(m, k') == if m[0].0 == k' then Some(m[0].1) else Get(m[1..], k') {
          GetCons(m[0], m[1..], k');
        }
      }
      if m[0].0 == k then rest
      else
        var r := [m[0]] + rest;
        assert forall k' :: Get(r, k') == if m[0].0 == k' then Some(m[0].1) else Get(rest, k') by {
          forall k' ensures Get(r, k') == if m[0].0 == k' then Some(m[0].1) else Get(rest, k') {
            GetCons(m[0], rest, k');
          }
        }
        assert Get(r, k) == None;
        assert Unique(m) ==> Unique(r) by {
          if Unique(m) {
            assert !HasKey(m[1..], m[0].0);
            assert Get(rest, m[0].0) == None;
            assert forall j :: 1 <= j < |r| ==> r[j] == rest[j - 1];
          }
        }
        r
  }

  /** Looking up a key in an entry followed by a map: the entry when its key matches, else the map. */
  lemma GetCons<K(!new), V>(e: (K, V), m: seq<(K, V)>, k: K)
    ensures Get([e] + m, k) == if e.0 == k then Some(e.1) else Get(m, k)
  {
    var s := [e] + m;
    assert s[0] == e;
    assert forall j :: 0 <= j < |m| ==> s[j + 1] == m[j];
    if e.0 != k && HasKey(m, k) {
      var j :| 0 <= j < |m| && m[j].0 == k;
      assert s[j + 1].0 == k;
      var a, b := IndexOf(s, k), IndexOf(m, k);
      assert a > 0;
      assert s[a] == m[a - 1];
      assert a - 1 == b;
    }
  }

  /**
   * When `r` keeps the keys of `m` at their positions (as `Put` does), a key
   * of `m` keeps its index in `r`, and a key `r` adds comes after all of
   * `m`'s entries.
   */
  lemma IndexKept<K(!new), V>(m: seq<(K, V)>, r: seq<(K, V)>, k: K)
    requires |m| <= |r| && forall i :: 0 <= i < |m| ==> r[i].0 == m[i].0
    requires HasKey(r, k)
    ensures HasKey(m, k) ==> IndexOf(r, k) == IndexOf(m, k)
    ensures !HasKey(m, k) ==> |m| <= IndexOf(r, k)
  {
  }

  /**
   * When `r` keeps the keys of `m` at their positions, a key of `m` comes
   * before a key that only `r` has.
   */
  lemma KeptBeforeAdded<K(!new), V>(m: seq<(K, V)>, r: seq<(K, V)>, a: K, b: K)
    requires |m| <= |r| && forall i :: 0 <= i < |m| ==> r[i].0 == m[i].0
    requires HasKey(m, a) && !HasKey(m, b) && HasKey(r, b)
    ensures HasKey(r, a) && IndexOf(r, a) < IndexOf(r, b)
  {
    IndexKept(m, r, a);
    IndexKept(m, r, b);
  }

  /** In a unique map, the value found under an entry's key is that entry's value. */
  lemma GetEntry<K(!new), V>(m: seq<(K, V)>, i: nat)
    requires Unique(m) && i < |m|
    ensures Get(m, m[i].0) == Some(m[i].1)
  {
    assert IndexOf(m, m[i].0) == i;
  }

  /**
   * Removing a present key from a unique map deletes exactly that one entry:
   * the entries before and after it stay, in the same order.
   */
  lemma {:induction false} RemoveDeletesOneEntry<K(!new), V>(m: seq<(K, V)>, i: nat)
    requires Unique(m) && i < |m|
    ensures Remove(m, m[i].0) == m[..i] + m[i + 1..]
  {
    var k := m[i].0;
    var tail := m[1..];
    assert Unique(tail) by {
      forall a, b | 0 <= a < b < |tail| ensures tail[a].0 != tail[b].0 {
        assert tail[a] == m[a + 1] && tail[b] == m[b + 1];
      }
    }
    if i == 0 {
      forall j | 0 <= j < |tail|
        ensures tail[j].0 != k
      {
        assert tail[j] == m[j + 1];
      }
      assert !HasKey(tail, k);
      assert Remove(m, k) == Remove(tail, k);
    } else {
      assert m[0].0 != k;
      assert Remove(m, k) == [m[0]] + Remove(tail, k);
      assert tail[i - 1] == m[i];
      RemoveDeletesOneEntry(tail, i - 1);
      assert tail[..i - 1] == m[1..i];
      assert tail[i..] == m[i + 1..];
      assert m[..i] == [m[0]] + m[1..i];
    }
  }
}

=== FILE: locale_store.dfy ===
/**
 * The locale text store (`Locale`): a nested text tree loaded from the first
 * search path that yields one, and dotted-key lookup into it.
 */
module LocaleStore {
  import opened Common
  import LinkedMap
  import opened LocaleKeys

  /**
   * A parsed language document: a missing or null value, a scalar (kept as
   * its string form), or a mapping in document order.
   */
  datatype Node = Null | Leaf(text: string) | Map(entries: seq<(string, Node)>)

  /** `Object.toString()` of a parsed value: `AbstractMap` prints `{k1=v1, k2=v2}`. */
  function Render(n: Node): string
    decreases n, 1, 0
  {
    match n
    case Null => "null"
    case Leaf(t) => t
    case Map(es) => "{" + RenderEntries(es, 0) + "}"
  }

  /** The entries of a mapping from index `i` on, as `k=v` separated by ", ". */
  function RenderEntries(es: seq<(string, Node)>, i: nat): string
    requires i <= |es|
    decreases Map(es), 0, |es| - i
  {
    if i == |es| then ""
    else
      var item := es[i].0 + "=" + Render(es[i].1);
      if i + 1 == |es| then item else item + ", " + RenderEntries(es, i + 1)
  }

  /** `map.get(k)` on a mapping node: the value, or Null when `k` is absent. */
  function Child(es: seq<(string, Node)>, k: string): (r: Node)
    ensures !LinkedMap.HasKey(es, k) ==> r == Null
    ensures LinkedMap.HasKey(es, k) ==> (k, r) in es
  {
    LinkedMap.Get(es, k).GetOr(Null)
  }

  /** In a one-entry mapping, the child under the entry's key is its value and every other child is Null. */
  lemma ChildOfSingleton(k: string, n: Node, q: string)
    ensures Child([(k, n)], q) == if k == q then n else Null
  {
    assert [(k, n)] == [(k, n)] + [];
    LinkedMap.GetCons((k, n), [], q);
  }

  /** The node reached by following `path` from `n`; Null as soon as a step starts from a non-mapping. */
  function Resolve(n: Node, path: seq<string>): Node
    decreases |path|
  {
    if |path| == 0 then n
    else
      match n
      case Map(es) => Resolve(Child(es, path[0]), path[1..])
      case _ => Null
  }

  /** A loaded language: `locales` is Null when no search path produced a document. */
  datatype Locale = Locale(locales: Node) {
    /** `isLoaded()`: the stored document is non-null. */
    predicate IsLoaded() {
      !locales.Null?
    }
  }

  /**
   * `text(key)`: descend one dotted segment at a time and return the string
   * form of the node reached, or null.
   */
  function Text(l: Locale, key: string): (r: Option<string>)
    ensures !l.IsLoaded() ==> r == None
  {
    var value := Resolve(l.locales, Split(key));
    if value.Null? then None else Some(Render(value))
  }

  /** Following a path in two legs is following it in one. */
  lemma {:induction false} ResolveAppend(n: Node, a: seq<string>, b: seq<string>)
    ensures Resolve(n, a + b) == Resolve(Resolve(n, a), b)
    decreases |a|
  {
    if |a| == 0 {
      assert a + b == b;
    } else {
      match n
      case Map(es) =>
        assert (a + b)[0] == a[0] && (a + b)[1..] == a[1..] + b;
        ResolveAppend(Child(es, a[0]), a[1..], b);
      case _ =>
        assert (a + b)[0] == a[0];
        if |b| > 0 {
          assert Resolve(Null, b) == Null;
        }
    }
  }

  /**
   * If the node reached after the first `i` segments is not a mapping and a
   * segment remains, `text` is null.
   */
  lemma TextNullBelowNonMap(l: Locale, key: string, i: nat)
    requires i < |Split(key)|
    requires !Resolve(l.locales, Split(key)[..i]).Map?
    ensures Text(l, key) == None
  {
    var path := Split(key);
    assert path == path[..i] + path[i..];
    ResolveAppend(l.locales, path[..i], path[i..]);
  }

  /** A segment missing from the mapping reached so far makes `text` null. */
  lemma TextNullOnMissingSegment(l: Locale, key: string, i: nat)
    requires i < |Split(key)|
    requires Resolve(l.locales, Split(key)[..i]).Map?
    requires !LinkedMap.HasKey(Resolve(l.locales, Split(key)[..i]).entries, Split(key)[i])
    ensures Text(l, key) == None
  {
    var path := Split(key);
    assert path == path[..i] + path[i..];
    ResolveAppend(l.locales, path[..i], path[i..]);
    var rest := path[i..];
    assert rest[0] == path[i];
    assert Resolve(Null, rest[1..]) == Null;
  }

  /**
   * A dotted key built from dot-free segments, the last one non-empty,
   * yields the string form of the node those segments reach, whether a
   * scalar or a whole mapping, and null exactly when they reach nothing.
   */
  lemma TextOfPath(l: Locale, segments: seq<string>)
    requires |segments| >= 1
    requires forall i :: 0 <= i < |segments| ==> '.' !in segments[i]
    requires |segments| == 1 || segments[|segments| - 1] != ""
    ensures var n := Resolve(l.locales, segments);
      Text(l, Join(segments)) == if n.Null? then None else Some(Render(n))
  {
    SplitJoin(segments);
  }

  /** The document `{a: {b: {c: X}}}`. */
  function NestedDocument(): Locale {
    Locale(Map([("a", Map([("b", Map([("c", Leaf("X"))]))]))]))
  }

  /** In `{a: {b: {c: X}}}`, "a.b.c" yields "X". */
  lemma NestedDocumentLeaf()
    ensures Text(NestedDocument(), "a.b.c") == Some("X")
  {
    var l := NestedDocument();
    var inner := Map([("c", Leaf("X"))]);
    var middle := Map([("b", inner)]);
    ChildOfSingleton("a", middle, "a");
    ChildOfSingleton("b", inner, "b");
    ChildOfSingleton("c", Leaf("X"), "c");
    assert Resolve(l.locales, ["a", "b", "c"]) == Leaf("X");
    assert Join(["a", "b", "c"]) == "a.b.c";
    TextOfPath(l, ["a", "b", "c"]);
  }

  /** In `{a: {b: {c: X}}}`, "a.b.z" yields null. */
  lemma NestedDocumentMissing()
    ensures Text(NestedDocument(), "a.b.z") == None
  {
    var l := NestedDocument();
    var inner := Map([("c", Leaf("X"))]);
    var middle := Map([("b", inner)]);
    assert Join(["a", "b", "z"]) == "a.b.z";
    SplitJoin(["a", "b", "z"]);
    ChildOfSingleton("a", middle, "a");
    ChildOfSingleton("b", inner, "b");
    ChildOfSingleton("c", Leaf("X"), "z");
    assert Resolve(l.locales, ["a", "b", "z"]) == Null;
  }

  /**
   * In `{a: {b: {c: X}}}`, "a" reaches a mapping and yields its string form
   * rather than null.
   */
  lemma NestedDocumentMapping()
    ensures Text(NestedDocument(), "a") == Some("{b={c=X}}")
  {
    var l := NestedDocument();
    var inner := Map([("c", Leaf("X"))]);
    var middle := Map([("b", inner)]);
    assert Split("a") == ["a"];
    ChildOfSingleton("a", middle, "a");
    assert Resolve(l.locales, ["a"]) == middle;
    assert Render(inner) == "{c=X}";
    assert Render(middle) == "{b={c=X}}";
  }

  /** A key of "." splits into no segments and yields the whole document's string form. */
  lemma DotKeyExample(l: Locale)
    requires l.IsLoaded()
    ensures Text(l, ".") == Some(Render(l.locales))
  {
    assert '.' in ".";
    assert SplitAll(".") == ["", ""];
  }

  /** A language file on the classpath: either unparseable or parsed to a document. */
  datatype Resource = Unparseable | Parsed(document: Node)

  /** The classpath resources by absolute name; an absent name is a missing resource. */
  type Classpath = map<string, Resource>

  /** The resource `/<searchPath>/<language>.yml`. */
  function ResourceName(searchPath: string, language: string): string {
    "/" + searchPath + "/" + language + ".yml"
  }

  /**
   * The document stored by one iteration of the loading loop, or None when
   * the iteration throws: a missing resource (a null stream), an unparseable
   * one, and a scalar document (which is not a map and fails the assignment
   * to the map-typed field) all throw.
   */
  function Attempt(cp: Classpath, searchPath: string, language: string): (r: Option<Node>)
    ensures r.Some? ==> r.value.Null? || r.value.Map?
    ensures r.Some? <==> (&& ResourceName(searchPath, language) in cp
                          && cp[ResourceName(searchPath, language)].Parsed?
                          && !cp[ResourceName(searchPath, language)].document.Leaf?)
    ensures r.Some? ==> r.value == cp[ResourceName(searchPath, language)].document
  {
    var name := ResourceName(searchPath, language);
    if name !in cp then None
    else
      match cp[name]
      case Unparseable => None
      case Parsed(Leaf(_)) => None
      case Parsed(d) => Some(d)
  }

  /** The index of the first search path whose iteration completes, or |paths| if none does. */
  function FirstLoadable(cp: Classpath, paths: seq<string>, language: string): (k: nat)
    ensures k <= |paths|
    ensures forall j :: 0 <= j < k ==> Attempt(cp, paths[j], language).None?
    ensures k < |paths| ==> Attempt(cp, paths[k], language).Some?
  {
    if |paths| == 0 then 0
    else if Attempt(cp, paths[0], language).Some? then 0
    else
      var k := 1 + FirstLoadable(cp, paths[1..], language);
      assert forall j :: 1 <= j < |paths| ==> paths[1..][j - 1] == paths[j];
      k
  }

  /**
   * `new Locale(language, searchPaths)`: the document from the first path
   * whose load completes; Null when every path throws. A completed load of
   * an empty document still ends the search.
   */
  function Load(language: string, paths: seq<string>, cp: Classpath): (l: Locale)
    ensures l.locales.Null? || l.locales.Map?
    ensures (forall i :: 0 <= i < |paths| ==> Attempt(cp, paths[i], language).None?) ==> !l.IsLoaded()
    ensures forall i :: 0 <= i < |paths| && Attempt(cp, paths[i], language).Some?
                        && (forall j :: 0 <= j < i ==> Attempt(cp, paths[j], language).None?)
                        ==> l.locales == Attempt(cp, paths[i], language).value
                            && l.locales == cp[ResourceName(paths[i], language)].document
  {
    var k := FirstLoadable(cp, paths, language);
    if k < |paths| then Locale(Attempt(cp, paths[k], language).value) else Locale(Null)
  }

  /** The constructor's loop: try each path in order, stop at the first load that completes. */
  method NewLocale(language: string, searchPaths: seq<string>, cp: Classpath) returns (l: Locale)
    ensures l == Load(language, searchPaths, cp)
  {
    l := Locale(Null);
    var i := 0;
    while i < |searchPaths|
      invariant 0 <= i <= |searchPaths|
      invariant i <= FirstLoadable(cp, searchPaths, language)
      invariant l.locales == Null
    {
      var attempt := Attempt(cp, searchPaths[i], language);
      if attempt.Some? {
        l := Locale(attempt.value);
        return;
      }
      i := i + 1;
    }
  }

  /** Paths after the first one that completes are never consulted. */
  lemma {:induction false} FirstLoadableIgnoresLaterPaths(cp: Classpath, paths: seq<string>, extra: seq<string>, language: string)
    requires FirstLoadable(cp, paths, language) < |paths|
    ensures FirstLoadable(cp, paths + extra, language) == FirstLoadable(cp, paths, language)
  {
    if Attempt(cp, paths[0], language).None? {
      assert (paths + extra)[0] == paths[0];
      assert (paths + extra)[1..] == paths[1..] + extra;
      FirstLoadableIgnoresLaterPaths(cp, paths[1..], extra, language);
    }
  }

  /** Appending search paths never changes a language that already loads from an earlier one. */
  lemma LaterPathsIgnored(language: string, paths: seq<string>, extra: seq<string>, cp: Classpath, i: nat)
    requires i < |paths| && Attempt(cp, paths[i], language).Some?
    ensures Load(language, paths + extra, cp) == Load(language, paths, cp)
  {
    FirstLoadableIgnoresLaterPaths(cp, paths, extra, language);
    var k := FirstLoadable(cp, paths, language);
    assert (paths + extra)[k] == paths[k];
  }
}

module LocaleKeys {
  /**
   * Every piece of `s` between dots, empty pieces included: a string with
   * `n` dots has `n + 1` pieces.
   */
  function SplitAll(s: string): (parts: seq<string>)
    ensures |parts| >= 1
    ensures forall p :: p in parts ==> '.' !in p
    decreases |s|
  {
    if |s| == 0 then [""]
    else
      var rest := SplitAll(s[1..]);
      if s[0] == '.' then [""] + rest
      else [[s[0]] + rest[0]] + rest[1..]
  }

  /** The pieces joined back with a dot between neighbours. */
  function Join(parts: seq<string>): string {
    if |parts| == 0 then ""
    else if |parts| == 1 then parts[0]
    else parts[0] + "." + Join(parts[1..])
  }

  /** Drops empty pieces from the end. */
  function DropTrailingEmpty(parts: seq<string>): (r: seq<string>)
    ensures |r| <= |parts| && r == parts[..|r|]
    ensures |r| > 0 ==> r[|r| - 1] != ""
    ensures forall i :: |r| <= i < |parts| ==> parts[i] == ""
  {
    if |parts| > 0 && parts[|parts| - 1] == "" then DropTrailingEmpty(parts[..|parts| - 1])
    else parts
  }

  /**
   * `key.split("\\.")` in Java: a key without any dot is its own single
   * piece (so "" gives [""]); otherwise the dot-separated pieces with
   * trailing empty pieces removed (so "." gives []).
   */
  function Split(key: string): (r: seq<string>)
    ensures '.' !in key ==> r == [key]
    ensures forall p :: p in r ==> '.' !in p
    ensures '.' in key ==> |r| <= |SplitAll(key)| && r == SplitAll(key)[..|r|]
    ensures '.' in key && |r| > 0 ==> r[|r| - 1] != ""
    ensures '.' in key ==> forall i :: |r| <= i < |SplitAll(key)| ==> SplitAll(key)[i] == ""
  {
    if '.' !in key then [key] else DropTrailingEmpty(SplitAll(key))
  }

  /** Joining the pieces of any string gives the string back. */
  lemma {:induction false} JoinSplitAll(s: string)
    ensures Join(SplitAll(s)) == s
    decreases |s|
  {
    if |s| > 0 {
      var rest := SplitAll(s[1..]);
      JoinSplitAll(s[1..]);
      if s[0] == '.' {
        assert SplitAll(s) == [""] + rest;
        assert ([""] + rest)[1..] == rest;
        assert s == [s[0]] + s[1..];
      } else {
        var parts := SplitAll(s);
        assert parts == [[s[0]] + rest[0]] + rest[1..];
        if |rest| == 1 {
          assert Join(parts) == [s[0]] + rest[0];
        } else {
          assert parts[1..] == rest[1..];
          assert Join(rest) == rest[0] + "." + Join(rest[1..]);
        }
        assert s == [s[0]] + s[1..];
      }
    }
  }

  /** Splitting a dot-free prefix glued to `t` glues it to `t`'s first piece. */
  lemma {:induction false} SplitAllDotFreePrefix(p: string, t: string)
    requires '.' !in p
    ensures SplitAll(p + t) == [p + SplitAll(t)[0]] + SplitAll(t)[1..]
    decreases |p|
  {
    if |p| > 0 {
      assert (p + t)[1..] == p[1..] + t;
      assert (p + t)[0] == p[0];
      SplitAllDotFreePrefix(p[1..], t);
      assert [p[0]] + (p[1..] + SplitAll(t)[0]) == p + SplitAll(t)[0];
    } else {
      assert p + t == t;
      assert p + SplitAll(t)[0] == SplitAll(t)[0];
      assert SplitAll(t) == [SplitAll(t)[0]] + SplitAll(t)[1..];
    }
  }

  /** Dot-free pieces survive a join followed by a split. */
  lemma {:induction false} SplitAllJoin(parts: seq<string>)
    requires |parts| >= 1
    requires forall i :: 0 <= i < |parts| ==> '.' !in parts[i]
    ensures SplitAll(Join(parts)) == parts
  {
    if |parts| == 1 {
      SplitAllDotFreePrefix(parts[0], "");
      assert parts[0] + "" == parts[0];
    } else {
      var t := Join(parts[1..]);
      SplitAllJoin(parts[1..]);
      assert "." + t == ['.'] + t;
      assert SplitAll("." + t) == [""] + SplitAll(t) by {
        assert ("." + t)[1..] == t;
      }
      assert parts[0] + "." + t == parts[0] + ("." + t);
      SplitAllDotFreePrefix(parts[0], "." + t);
      var dotted := SplitAll("." + t);
      assert dotted[0] == "" && dotted[1..] == parts[1..];
      assert parts[0] + dotted[0] == parts[0];
      assert Join(parts) == parts[0] + ("." + t);
      assert parts == [parts[0]] + parts[1..];
    }
  }

  /**
   * A key joined from dot-free segments splits back into exactly those
   * segments, provided a single segment is all there is or the last one is
   * non-empty: empty interior segments survive, trailing ones would not.
   */
  lemma SplitJoin(segments: seq<string>)
    requires |segments| >= 1
    requires forall i :: 0 <= i < |segments| ==> '.' !in segments[i]
    requires |segments| == 1 || segments[|segments| - 1] != ""
    ensures Split(Join(segments)) == segments
  {
    var key := Join(segments);
    if |segments| == 1 {
      assert key == segments[0];
    } else {
      assert key == segments[0] + "." + Join(segments[1..]);
      assert key[|segments[0]|] == '.';
      SplitAllJoin(segments);
    }
  }
}

=== FILE: reflect_util.dfy ===
/**
 * The reflective search rules (`ReflectUtil`) over declarative class
 * descriptors: a class is its declared fields, methods and constructors plus
 * a superclass link ending at `java.lang.Object`.
 */
module ReflectUtil {
  import opened Common
  import StringUtil

  /** A fully qualified Java type name. */
  type TypeName = string

  const ObjectName: TypeName := "java.lang.Object"
  const StringName: TypeName := "java.lang.String"

  /** The framework's annotations with their payload. */
  datatype Annotation = I18N(key: string) | ContainerMark | Initializer | Frame

  /** An annotation class, as passed to `isAnnotationPresent`. */
  datatype Marker = I18NMarker | ContainerMarker | InitializerMarker | FrameMarker

  function MarkerOf(a: Annotation): Marker {
    match a
    case I18N(_) => I18NMarker
    case ContainerMark => ContainerMarker
    case Initializer => InitializerMarker
    case Frame => FrameMarker
  }

  predicate IsAnnotationPresent(annotations: seq<Annotation>, m: Marker) {
    exists i :: 0 <= i < |annotations| && MarkerOf(annotations[i]) == m
  }

  datatype FieldDecl = FieldDecl(name: string, fieldType: TypeName, annotations: seq<Annotation>)
  datatype MethodDecl = MethodDecl(name: string, params: seq<TypeName>, annotations: seq<Annotation>)
  datatype CtorDecl = CtorDecl(params: seq<TypeName>, isPublic: bool)

  /**
   * A runtime class: `java.lang.Object`, or a declared class with its
   * members in declaration order, the interfaces it implements (closed under
   * super-interfaces), its class annotations and its superclass.
   */
  datatype ClassDecl =
    | ObjectClass
    | Declared(name: TypeName, fields: seq<FieldDecl>, methods: seq<MethodDecl>,
               constructors: seq<CtorDecl>, interfaces: set<TypeName>,
               annotations: seq<Annotation>, superclass: ClassDecl)

  /** An object at run time: an identity and its runtime class. */
  datatype Obj = Obj(id: nat, cls: ClassDecl)

  /**
   * A declared field or method found by a search, identified by the
   * distance of its declaring class from the runtime class and its position
   * in that class's declarations.
   */
  datatype Member<T> = Member(depth: nat, index: nat, decl: T)

  function NameOf(c: ClassDecl): TypeName {
    match c
    case ObjectClass => ObjectName
    case Declared(n, _, _, _, _, _, _) => n
  }

  /** `getConstructors()` order of all constructors; Object has just its public no-argument one. */
  function Constructors(c: ClassDecl): seq<CtorDecl> {
    match c
    case ObjectClass => [CtorDecl([], true)]
    case Declared(_, _, _, ctors, _, _, _) => ctors
  }

  /** The number of classes from the runtime class up to, but excluding, Object. */
  function Height(c: ClassDecl): nat {
    match c
    case ObjectClass => 0
    case Declared(_, _, _, _, _, _, s) => 1 + Height(s)
  }

  /** The `d`-th superclass (the class itself for 0); Object beyond the top. */
  function Ancestor(c: ClassDecl, d: nat): (a: ClassDecl)
    ensures a.Declared? <==> d < Height(c)
  {
    if d == 0 || c.ObjectClass? then c else Ancestor(c.superclass, d - 1)
  }

  /** Field `i` of the class `d` steps up is tagged with `m`. */
  predicate FieldMarked(c: ClassDecl, d: nat, i: nat, m: Marker) {
    && d < Height(c)
    && i < |Ancestor(c, d).fields|
    && IsAnnotationPresent(Ancestor(c, d).fields[i].annotations, m)
  }

  /** `x` precedes `y` in search order: nearer class first, then declaration order. */
  predicate Before<T>(x: Member<T>, y: Member<T>) {
    x.depth < y.depth || (x.depth == y.depth && x.index < y.index)
  }

  /** The tagged fields of class `d` steps up, from declaration position `i` on. */
  function OwnMarkedFields(c: ClassDecl, m: Marker, d: nat, i: nat): (r: seq<Member<FieldDecl>>)
    requires d < Height(c)
    ensures forall x :: x in r ==> x.depth == d && i <= x.index && FieldMarked(c, d, x.index, m)
                                   && x.decl == Ancestor(c, d).fields[x.index]
    ensures forall j :: i <= j && FieldMarked(c, d, j, m) ==> Member(d, j, Ancestor(c, d).fields[j]) in r
    ensures forall a, b :: 0 <= a < b < |r| ==> r[a].index < r[b].index
    decreases |Ancestor(c, d).fields| - i
  {
    var fields := Ancestor(c, d).fields;
    if i >= |fields| then []
    else
      var rest := OwnMarkedFields(c, m, d, i + 1);
      if IsAnnotationPresent(fields[i].annotations, m) then [Member(d, i, fields[i])] + rest else rest
  }

  /** The tagged fields of the classes from `d` steps up to just below Object. */
  function MarkedFieldsFrom(c: ClassDecl, m: Marker, d: nat): (r: seq<Member<FieldDecl>>)
    ensures forall x :: x in r ==> d <= x.depth && FieldMarked(c, x.depth, x.index, m)
                                   && x.decl == Ancestor(c, x.depth).fields[x.index]
    ensures forall e: nat, j: nat :: d <= e && FieldMarked(c, e, j, m) ==> Member(e, j, Ancestor(c, e).fields[j]) in r
    ensures forall a, b :: 0 <= a < b < |r| ==> Before(r[a], r[b])
    decreases Height(c) - d
  {
    if d >= Height(c) then []
    else
      var own := OwnMarkedFields(c, m, d, 0);
      var rest := MarkedFieldsFrom(c, m, d + 1);
      assert forall x :: x in own ==> x.depth == d;
      assert forall x :: x in rest ==> d < x.depth;
      var r := own + rest;
      assert forall e: nat, j: nat :: d < e && FieldMarked(c, e, j, m) ==> Member(e, j, Ancestor(c, e).fields[j]) in rest;
      assert forall j: nat :: FieldMarked(c, d, j, m) ==> Member(d, j, Ancestor(c, d).fields[j]) in own;
      r
  }

  /**
   * `searchFieldByAnnotation`: exactly the fields tagged with `m` declared
   * in the runtime class and its superclasses below Object, subclass fields
   * first and declaration order within a class.
   */
  function SearchFieldByAnnotation(obj: Obj, m: Marker): (r: seq<Member<FieldDecl>>)
    ensures forall x :: x in r ==> FieldMarked(obj.cls, x.depth, x.index, m)
                                   && x.decl == Ancestor(obj.cls, x.depth).fields[x.index]
    ensures forall d: nat, i: nat :: FieldMarked(obj.cls, d, i, m) ==> Member(d, i, Ancestor(obj.cls, d).fields[i]) in r
    ensures forall a, b :: 0 <= a < b < |r| ==> Before(r[a], r[b])
  {
    MarkedFieldsFrom(obj.cls, m, 0)
  }

  /** Method `i` of `cls` has exactly this name and these parameter types. */
  predicate MethodMatches(cls: ClassDecl, i: nat, name: string, types: seq<TypeName>) {
    cls.Declared? && i < |cls.methods| && cls.methods[i].name == name && cls.methods[i].params == types
  }

  /** `getDeclaredMethod(name, types)` succeeds on `cls`. */
  predicate DeclaresMethod(cls: ClassDecl, name: string, types: seq<TypeName>) {
    cls.Declared? && exists i :: 0 <= i < |cls.methods| && MethodMatches(cls, i, name, types)
  }

  /** No class of the chain below Object declares this name with these parameter types. */
  predicate NoneDeclares(c: ClassDecl, name: string, types: seq<TypeName>) {
    forall e :: 0 <= e < Height(c) ==> !DeclaresMethod(Ancestor(c, e), name, types)
  }

  /** The first declared method of `cls`, from position `i` on, with this name and these types. */
  function DeclaredMethod(cls: ClassDecl, name: string, types: seq<TypeName>, i: nat): (r: Option<nat>)
    requires cls.Declared?
    ensures r.Some? ==> i <= r.value && MethodMatches(cls, r.value, name, types)
    ensures r.Some? ==> forall j :: i <= j < r.value ==> !MethodMatches(cls, j, name, types)
    ensures r.None? ==> forall j :: i <= j ==> !MethodMatches(cls, j, name, types)
    decreases |cls.methods| - i
  {
    if i >= |cls.methods| then None
    else if MethodMatches(cls, i, name, types) then Some(i)
    else DeclaredMethod(cls, name, types, i + 1)
  }

  function MethodFrom(c: ClassDecl, name: string, types: seq<TypeName>, d: nat): (r: Option<Member<MethodDecl>>)
    ensures r.Some? ==> d <= r.value.depth && MethodMatches(Ancestor(c, r.value.depth), r.value.index, name, types)
                        && r.value.decl == Ancestor(c, r.value.depth).methods[r.value.index]
    ensures r.Some? ==> forall e :: d <= e < r.value.depth ==> !DeclaresMethod(Ancestor(c, e), name, types)
    ensures r.None? ==> forall e :: d <= e < Height(c) ==> !DeclaresMethod(Ancestor(c, e), name, types)
    decreases Height(c) - d
  {
    if d >= Height(c) then None
    else
      var cls := Ancestor(c, d);
      match DeclaredMethod(cls, name, types, 0)
      case Some(i) => Some(Member(d, i, cls.methods[i]))
      case None => MethodFrom(c, name, types, d + 1)
  }

  /**
   * `searchMethodByNameAndType`: the method with exactly this name and these
   * parameter types declared in the nearest class of the chain below Object,
   * or null.
   */
  function SearchMethodByNameAndType(obj: Obj, name: string, types: seq<TypeName>): (r: Option<Member<MethodDecl>>)
    ensures r.Some? ==> r.value.depth < Height(obj.cls)
                        && MethodMatches(Ancestor(obj.cls, r.value.depth), r.value.index, name, types)
                        && r.value.decl == Ancestor(obj.cls, r.value.depth).methods[r.value.index]
    ensures r.Some? ==> forall e :: 0 <= e < r.value.depth ==> !DeclaresMethod(Ancestor(obj.cls, e), name, types)
    ensures r.None? <==> NoneDeclares(obj.cls, name, types)
  {
    MethodFrom(obj.cls, name, types, 0)
  }

  /** `"set" + capitalize(name)`. */
  function SetterName(fieldName: string): string {
    "set" + StringUtil.Capitalize(Some(fieldName)).value
  }

  /** `"get" + capitalize(name)`. */
  function GetterName(fieldName: string): string {
    "get" + StringUtil.Capitalize(Some(fieldName)).value
  }

  /** `searchSetterByField`: `set<Name>` taking exactly the field's type. */
  function SearchSetterByField(obj: Obj, field: FieldDecl): (r: Option<Member<MethodDecl>>)
    ensures r.Some? ==> r.value.decl.name == SetterName(field.name) && r.value.decl.params == [field.fieldType]
    ensures r.None? <==> NoneDeclares(obj.cls, SetterName(field.name), [field.fieldType])
  {
    var name := SetterName(field.name);
    SearchMethodByNameAndType(obj, name, [field.fieldType])
  }

  /** `searchGetterByField`: `get<Name>` taking no arguments. */
  function SearchGetterByField(obj: Obj, field: FieldDecl): (r: Option<Member<MethodDecl>>)
    ensures r.Some? ==> r.value.decl.name == GetterName(field.name) && r.value.decl.params == []
    ensures r.None? <==> NoneDeclares(obj.cls, GetterName(field.name), [])
  {
    var name := GetterName(field.name);
    SearchMethodByNameAndType(obj, name, [])
  }

  /** `searchMethodByNameAndType(obj, name, String.class)`: a text setter candidate. */
  function StringSetter(obj: Obj, name: string): Option<Member<MethodDecl>> {
    SearchMethodByNameAndType(obj, name, [StringName])
  }

  /**
   * `searchI18NCompatibleMethod`: the single-String-parameter method for the
   * earliest name in `names` that resolves anywhere in the chain; list
   * order wins over class depth.
   */
  function SearchI18NCompatibleMethod(obj: Obj, names: seq<string>): Option<Member<MethodDecl>>
    decreases |names|
  {
    if |names| == 0 then None
    else
      var found := StringSetter(obj, names[0]);
      if found.Some? then found else SearchI18NCompatibleMethod(obj, names[1..])
  }

  /**
   * The text setter found is null exactly when no name resolves; otherwise
   * it is the method of the earliest name that resolves.
   */
  lemma {:induction false} I18NMethodChoice(obj: Obj, names: seq<string>)
    ensures var r := SearchI18NCompatibleMethod(obj, names);
      r.None? <==> forall i :: 0 <= i < |names| ==> StringSetter(obj, names[i]).None?
    ensures var r := SearchI18NCompatibleMethod(obj, names);
      r.Some? ==> exists i :: 0 <= i < |names| && r == StringSetter(obj, names[i])
                              && forall j :: 0 <= j < i ==> StringSetter(obj, names[j]).None?
    decreases |names|
  {
    if |names| > 0 && StringSetter(obj, names[0]).None? {
      I18NMethodChoice(obj, names[1..]);
      assert forall i :: 1 <= i < |names| ==> names[1..][i - 1] == names[i];
      var r := SearchI18NCompatibleMethod(obj, names);
      if r.Some? {
        var i :| 0 <= i < |names[1..]| && r == StringSetter(obj, names[1..][i])
                 && forall j :: 0 <= j < i ==> StringSetter(obj, names[1..][j]).None?;
        assert r == StringSetter(obj, names[i + 1]);
      }
    }
  }

  /** `t.isAssignableFrom(c)`: `t` is `c`, one of its superclasses, or one of its interfaces. */
  function IsAssignableFrom(t: TypeName, c: ClassDecl): bool {
    match c
    case ObjectClass => t == ObjectName
    case Declared(n, _, _, _, ifaces, _, s) => t == n || t in ifaces || IsAssignableFrom(t, s)
  }

  /** The argument is non-null and the parameter type accepts its runtime class. */
  predicate AcceptsArgument(param: TypeName, arg: Option<Obj>) {
    arg.Some? && IsAssignableFrom(param, arg.value.cls)
  }

  /** Every argument from position `i` up to `j` is accepted by its parameter type. */
  predicate AcceptedBetween(params: seq<TypeName>, args: seq<Option<Obj>>, i: nat, j: nat)
    requires |params| == |args| && j <= |args|
  {
    forall k :: i <= k < j ==> AcceptsArgument(params[k], args[k])
  }

  /** Every argument is non-null and accepted by the matching parameter type. */
  predicate Accepts(params: seq<TypeName>, args: seq<Option<Obj>>)
    requires |params| == |args|
  {
    AcceptedBetween(params, args, 0, |args|)
  }

  /**
   * The parameter check loop shared by constructor and initializer
   * selection: it calls `getClass()` on each argument in turn (throwing on
   * null) and stops at the first parameter that does not accept it.
   */
  function ArgumentsAccepted(params: seq<TypeName>, args: seq<Option<Obj>>, i: nat): (r: Try<bool>)
    requires |params| == |args| && i <= |args|
    ensures r == Returned(true) <==> AcceptedBetween(params, args, i, |args|)
    ensures r == Threw <==> exists j :: i <= j < |args| && args[j].None? && AcceptedBetween(params, args, i, j)
    decreases |args| - i
  {
    if i == |args| then Returned(true)
    else if args[i].None? then
      assert AcceptedBetween(params, args, i, i);
      Threw
    else if !AcceptsArgument(params[i], args[i]) then
      assert forall j :: i < j <= |args| ==> !AcceptedBetween(params, args, i, j);
      Returned(false)
    else
      var r := ArgumentsAccepted(params, args, i + 1);
      assert forall j :: i < j <= |args| ==>
        (AcceptedBetween(params, args, i, j) <==> AcceptedBetween(params, args, i + 1, j));
      r
  }

  /** With no null argument the check never throws, and it passes exactly when every argument is accepted. */
  lemma NonNullArgumentsChecked(params: seq<TypeName>, args: seq<Option<Obj>>)
    requires |params| == |args|
    requires forall j :: 0 <= j < |args| ==> args[j].Some?
    ensures ArgumentsAccepted(params, args, 0) == Returned(Accepts(params, args))
  {
    NonNullArgumentsCheckedFrom(params, args, 0);
  }

  /** The check from position `i` on, when no argument from there on is null. */
  lemma {:induction false} NonNullArgumentsCheckedFrom(params: seq<TypeName>, args: seq<Option<Obj>>, i: nat)
    requires |params| == |args| && i <= |args|
    requires forall j :: i <= j < |args| ==> args[j].Some?
    ensures ArgumentsAccepted(params, args, i) == Returned(AcceptedBetween(params, args, i, |args|))
    decreases |args| - i
  {
    if i < |args| && AcceptsArgument(params[i], args[i]) {
      NonNullArgumentsCheckedFrom(params, args, i + 1);
    }
  }

  /** The public constructors in `getConstructors()` order. */
  function PublicConstructors(c: ClassDecl): (r: seq<CtorDecl>)
    ensures forall k :: k in r <==> k in Constructors(c) && k.isPublic
  {
    var all := Constructors(c);
    FilterPublic(all)
  }

  function FilterPublic(ctors: seq<CtorDecl>): (r: seq<CtorDecl>)
    ensures forall k :: k in r <==> k in ctors && k.isPublic
  {
    if |ctors| == 0 then []
    else (if ctors[0].isPublic then [ctors[0]] else []) + FilterPublic(ctors[1..])
  }

  /** Constructor `k` has the arguments' arity and accepts all of them. */
  predicate Fits(k: CtorDecl, args: seq<Option<Obj>>) {
    |k.params| == |args| && Accepts(k.params, args)
  }

  /** The first constructor from position `i` on whose arity matches and that accepts the arguments. */
  function FirstFitting(ctors: seq<CtorDecl>, args: seq<Option<Obj>>, i: nat): (r: Try<Option<CtorDecl>>)
    requires i <= |ctors|
    ensures r.Returned? && r.value.Some? ==> exists j :: i <= j < |ctors| && ctors[j] == r.value.value && Fits(ctors[j], args)
                                                         && forall k :: i <= k < j ==> !Fits(ctors[k], args)
    ensures r == Returned(None) ==> forall j :: i <= j < |ctors| ==> !Fits(ctors[j], args)
    ensures r == Threw ==> exists j :: 0 <= j < |args| && args[j].None?
    ensures (forall j :: 0 <= j < |args| ==> args[j].Some?) ==> r.Returned?
    decreases |ctors| - i
  {
    if i == |ctors| then Returned(None)
    else if |ctors[i].params| != |args| then FirstFitting(ctors, args, i + 1)
    else
      match ArgumentsAccepted(ctors[i].params, args, 0)
      case Threw => Threw
      case Returned(true) => Returned(Some(ctors[i]))
      case Returned(false) => FirstFitting(ctors, args, i + 1)
  }

  /** `clazz.getConstructor()`: the public constructor without parameters, if any. */
  function NoArgConstructor(c: ClassDecl): (r: Option<CtorDecl>)
    ensures r.Some? ==> r.value in PublicConstructors(c) && r.value.params == []
    ensures r.None? ==> forall k :: k in PublicConstructors(c) ==> k.params != []
  {
    var ctors := PublicConstructors(c);
    match FirstFitting(ctors, [], 0)
    case Returned(found) => found
    case Threw => None
  }

  /**
   * `getConstructor(clazz, args)`: with no arguments, the public no-argument
   * constructor; otherwise the first public constructor in enumeration order
   * whose arity matches and whose parameter types accept the arguments'
   * runtime classes. A null argument reached by the check throws.
   */
  function GetConstructor(c: ClassDecl, args: seq<Option<Obj>>): (r: Try<Option<CtorDecl>>)
    ensures r.Returned? && r.value.Some? ==> r.value.value in PublicConstructors(c) && Fits(r.value.value, args)
    ensures r.Returned? && r.value.Some? ==>
      exists j :: 0 <= j < |PublicConstructors(c)| && PublicConstructors(c)[j] == r.value.value
                  && forall k :: 0 <= k < j ==> !Fits(PublicConstructors(c)[k], args)
    ensures r == Returned(None) ==> forall k :: k in PublicConstructors(c) ==> !Fits(k, args)
    ensures r == Threw ==> exists j :: 0 <= j < |args| && args[j].None?
    ensures (forall j :: 0 <= j < |args| ==> args[j].Some?) ==> r.Returned?
  {
    if |args| == 0 then Returned(NoArgConstructor(c))
    else FirstFitting(PublicConstructors(c), args, 0)
  }

  /** Every class is assignable to Object, to itself and to each of its superclasses. */
  lemma {:induction false} AssignableToAncestors(c: ClassDecl, d: nat)
    ensures IsAssignableFrom(ObjectName, c)
    ensures d < Height(c) ==> IsAssignableFrom(NameOf(Ancestor(c, d)), c)
    decreases c
  {
    match c
    case ObjectClass =>
    case Declared(_, _, _, _, _, _, s) =>
      AssignableToAncestors(s, if d == 0 then 0 else d - 1);
  }

  /**
   * Registering further setter names never changes the setter found for an
   * object that already resolves one.
   */
  lemma {:induction false} LaterNamesIgnored(obj: Obj, names: seq<string>, extra: seq<string>)
    requires SearchI18NCompatibleMethod(obj, names).Some?
    ensures SearchI18NCompatibleMethod(obj, names + extra) == SearchI18NCompatibleMethod(obj, names)
  {
    assert (names + extra)[0] == names[0];
    if StringSetter(obj, names[0]).None? {
      assert (names + extra)[1..] == names[1..] + extra;
      LaterNamesIgnored(obj, names[1..], extra);
    }
  }

  /** A label whose superclass declares `setText(String)` while the label itself declares `setTitle(String)`. */
  function TitledLabel(): Obj {
    var base := Declared("Base", [], [MethodDecl("setText", [StringName], [])], [CtorDecl([], true)], {}, [], ObjectClass);
    Obj(1, Declared("Label", [], [MethodDecl("setTitle", [StringName], [])], [CtorDecl([], true)], {}, [], base))
  }

  /**
   * List order wins over class depth: with names ["setText", "setTitle"] the
   * superclass's `setText` is chosen although `setTitle` is declared nearer.
   */
  lemma ListOrderBeatsDepth()
    ensures SearchI18NCompatibleMethod(TitledLabel(), ["setText", "setTitle"])
            == Some(Member(1, 0, MethodDecl("setText", [StringName], [])))
  {
    var obj := TitledLabel();
    assert MethodMatches(Ancestor(obj.cls, 1), 0, "setText", [StringName]);
    assert !MethodMatches(Ancestor(obj.cls, 0), 0, "setText", [StringName]);
    assert DeclaredMethod(Ancestor(obj.cls, 0), "setText", [StringName], 0) == None;
    assert StringSetter(obj, "setText").Some?;
  }
}

=== FILE: string_util.dfy ===
/**
 * First-character case change (`StringUtil`). Case mapping is restricted to
 * ASCII letters: every other character maps to itself.
 */
module StringUtil {
  import opened Common

  /** `Character.toUpperCase`, on ASCII. */
  function ToUpperCase(c: char): char {
    if 'a' <= c <= 'z' then (c as int - 32) as char else c
  }

  /** `Character.toLowerCase`, on ASCII. */
  function ToLowerCase(c: char): char {
    if 'A' <= c <= 'Z' then (c as int + 32) as char else c
  }

  /** A non-null string with at least one character. */
  function HasLength(str: Option<string>): (r: bool)
    ensures r <==> str != None && |str.value| > 0
  {
    match str
    case None => false
    case Some(s) => s != []
  }

  /**
   * Replaces the first character by its upper-case (`capitalize`) or
   * lower-case form; null, empty, and already-converted strings come back
   * as they are.
   */
  function ChangeFirstCharacterCase(str: Option<string>, capitalize: bool): (r: Option<string>)
    ensures !HasLength(str) ==> r == str
    ensures r.None? <==> str.None?
    ensures r.Some? ==> |r.value| == |str.value|
    ensures r.Some? ==> forall i :: 1 <= i < |r.value| ==> r.value[i] == str.value[i]
    ensures HasLength(str) ==>
      r.value[0] == (if capitalize then ToUpperCase(str.value[0]) else ToLowerCase(str.value[0]))
  {
    if !HasLength(str) then str
    else
      var baseChar := str.value[0];
      var updatedChar := if capitalize then ToUpperCase(baseChar) else ToLowerCase(baseChar);
      if baseChar == updatedChar then str
      else Some([updatedChar] + str.value[1..])
  }

  /** Upper-cases the first character. */
  function Capitalize(str: Option<string>): (r: Option<string>)
    ensures r.None? <==> str.None?
    ensures r.Some? ==> |r.value| == |str.value|
    ensures HasLength(str) ==> r.value[0] == ToUpperCase(str.value[0]) && r.value[1..] == str.value[1..]
  {
    ChangeFirstCharacterCase(str, true)
  }

  /** Lower-cases the first character. */
  function Uncapitalize(str: Option<string>): (r: Option<string>)
    ensures r.None? <==> str.None?
    ensures r.Some? ==> |r.value| == |str.value|
    ensures HasLength(str) ==> r.value[0] == ToLowerCase(str.value[0]) && r.value[1..] == str.value[1..]
  {
    ChangeFirstCharacterCase(str, false)
  }

  /** A string whose first character is already in the target case is returned unchanged. */
  lemma AlreadyInCase(str: Option<string>, capitalize: bool)
    requires HasLength(str)
    requires str.value[0] == (if capitalize then ToUpperCase(str.value[0]) else ToLowerCase(str.value[0]))
    ensures ChangeFirstCharacterCase(str, capitalize) == str
  {
    var r := ChangeFirstCharacterCase(str, capitalize);
    assert r.value == str.value;
  }

  /** Capitalizing twice is capitalizing once. */
  lemma CapitalizeIdempotent(str: Option<string>)
    ensures Capitalize(Capitalize(str)) == Capitalize(str)
  {
    if HasLength(str) {
      AlreadyInCase(Capitalize(str), true);
    }
  }

  /** Uncapitalize undoes Capitalize on a string that starts with a lower-case letter. */
  lemma UncapitalizeUndoesCapitalize(str: Option<string>)
    requires HasLength(str) && 'a' <= str.value[0] <= 'z'
    ensures Uncapitalize(Capitalize(str)) == str
  {
    var c := Capitalize(str);
    var u := Uncapitalize(c);
    assert u.value[0] == str.value[0];
    assert u.value == [u.value[0]] + u.value[1..];
    assert str.value == [str.value[0]] + str.value[1..];
  }
}
